=== FILE: README.md ===
# mp3party downloader — a Dafny model of its core

`mp3DownloadGui.py` is a small tkinter application that searches
mp3party.net for tracks or walks an artist's catalog, lists the tracks with
check boxes and downloads the ticked ones into a folder. This project models
the pure logic of that file and proves properties about it:

- `safe_filename`, which turns "artist - title.mp3" into a file name (`Sanitize`, with the
  whitespace helpers in `Strings`), together with a second definition by words,
  `" ".join` over `str.split()`, proved equal to it (`SplitJoin`);
- the track-panel extraction shared by the search and the catalog pages, the
  `[:limit]` slice of the search, and the artist de-duplication (`Scrape`);
- the fetches: the one-page track search, the artist-name search, and the
  pagination walk of `collect_tracks_from_artist` over a site given as a map
  from url to page (`Catalog`);
- the chunk and progress accounting of `download_file` (`Download`);
- `start_download`: its guards, the selection of ticked rows, and the worker
  that downloads each selected track in turn and maps per-file fractions to
  overall progress (`Batch`);
- `search_tracks`: the stripped query, the "search"/"artist" mode decision,
  the artist choice dialog, and the default state of the check boxes
  `show_tracks` creates (`Dispatch`).

Everything is a pure function over immutable datatypes. The network is a
`Web` (a map from url to the nodes the CSS selectors would pick) or a function
from url to a streamed response. A url the map does not hold is a fetch that
raises. `urljoin(BASE, _)`, `quote_plus` and `os.path.join` are function
parameters (`resolve`, `quote`, `join`). The folder on disk is a map from path
to bytes. Progress values are exact `real`s. Python's `str.isspace` (what
`strip()` removes and what `\s` matches) is written out as its set of Unicode
code points. `Outcomes` holds the `Option` and `Result` types the
modules share, and `Errors` the three ways the core can fail: an HTTP error
for a url, an unparsable content-length, and a walk out of steps.

Two behaviours of the catalog walk are worth stating plainly. A failed
fetch on any page raises out of `collect_tracks_from_artist`, so the tracks
of the pages before it are lost and no partial list is returned. A catalog
of P pages costs exactly P fetches, because the loop breaks on the page that
has no next link instead of fetching once more.

## Model

| member | source | states |
|---|---|---|
| Strings.Strip | mp3DownloadGui.py:16 | `str.strip()`: the result is a contiguous slice of the input with only whitespace before and after it, so only a leading and a trailing whitespace run are removed; it neither begins nor ends with whitespace, keeps every non-whitespace character in order, and is empty exactly when the input is all whitespace |
| Sanitize.ReplaceReserved | mp3DownloadGui.py:17 | the substitution keeps the length and replaces each of the nine characters Windows forbids (backslash, slash, star, question mark, colon, double quote, both angle brackets, vertical bar) by `_`, every other character staying in place |
| Sanitize.CollapseSpaces | mp3DownloadGui.py:18 | `re.sub(r'\s+', " ", _)` never lengthens the text |
| Sanitize.CollapseKeepsNonSpace | mp3DownloadGui.py:18 | collapsing whitespace runs keeps the non-whitespace characters and their order |
| Sanitize.CollapseAddsOnlyBlanks | mp3DownloadGui.py:18 | collapsing introduces no character other than the blank |
| Sanitize.CollapseGivesSingleBlanks | mp3DownloadGui.py:18 | after collapsing, every whitespace character is a single blank with no whitespace next to it |
| Sanitize.SafeFilename | mp3DownloadGui.py:15-19 | the sanitised name is never longer than the input |
| Sanitize.SafeFilenameIsSafe | mp3DownloadGui.py:15-19 | the result has no reserved character, no leading or trailing whitespace, no two adjacent whitespace characters, and its non-whitespace characters are the input's in order with reserved ones replaced by `_` |
| Sanitize.SafeFilenameFixedPoints | mp3DownloadGui.py:15-19 | a name is left unchanged exactly when it is already safe in that sense |
| Sanitize.SafeFilenameIdempotent | mp3DownloadGui.py:15-19 | sanitising twice is sanitising once |
| Sanitize.SafeFilenameKeepsSuffix | mp3DownloadGui.py:15-19 | a trailing word with no whitespace and no reserved character, such as ".mp3", survives sanitising unchanged at the end of the name |
| SplitJoin.FirstWordIsPrefix | mp3DownloadGui.py:18 | a word of the text is a whitespace-free stretch that ends at whitespace or at the end of the text |
| SplitJoin.SplitGivesWords | mp3DownloadGui.py:18 | the words of a text, in the sense of `str.split()` with no argument, are non-empty and hold no whitespace |
| SplitJoin.CollapseIsJoin | mp3DownloadGui.py:18 | on a text without leading or trailing whitespace, replacing every whitespace run by one blank is joining the text's words with single blanks |
| SplitJoin.SplitStrip | mp3DownloadGui.py:16 | stripping the name does not change its words |
| SplitJoin.SplitReplace | mp3DownloadGui.py:17 | replacing the reserved characters does not move word boundaries: the words of the replaced text are the replaced words |
| SplitJoin.SafeFilenameByWords | mp3DownloadGui.py:15-19 | the sanitised name equals `" ".join` of the input's words, each with its reserved characters replaced by `_` — a second, word-based definition of the same function |
| Scrape.ToTrack | mp3DownloadGui.py:36-40 | a panel's record carries its `data-js-url`, and its title and artist attributes, or "Unknown Title"/"Unknown Artist" when they are missing or empty |
| Scrape.ExtractTracks | mp3DownloadGui.py:60-66 | the panel loop yields at most one record per panel, each with a non-empty url, title and artist |
| Scrape.ExtractMembership | mp3DownloadGui.py:36-40 | a record is produced exactly for a panel with a non-empty `data-js-url`; its title and artist are the attributes when non-empty and "Unknown Title"/"Unknown Artist" otherwise |
| Scrape.ExtractAppend | mp3DownloadGui.py:61-66 | the loop works panel by panel, so the records of two panel lists are the records of each, in order |
| Scrape.ExtractAllAudio | mp3DownloadGui.py:35-40 | when every panel carries audio, record i is built from panel i |
| Scrape.ExtractSkipsSilentPanel | mp3DownloadGui.py:39-40 | a panel without audio neither contributes a record nor disturbs the others |
| Scrape.SlicePrefix | mp3DownloadGui.py:35 | Python's `[:n]`: a prefix of length min(n, len) for n ≥ 0, and len + n (at least 0) for negative n |
| Scrape.SearchPanels | mp3DownloadGui.py:34-41 | the search's records are a prefix of all the page's records and number at most `limit` and at most the panels |
| Scrape.SearchMembership | mp3DownloadGui.py:34-41 | a record is in the search's result exactly when it is built from a panel with audio among the first `limit` panels (Python's `[:limit]`) |
| Scrape.SearchSplitsPage | mp3DownloadGui.py:34-40 | the search's records followed by the records of the panels past the `[:limit]` slice are all the page's records, so each audio panel inside the slice gives its own record, repeats included |
| Scrape.SearchTakesFirst | mp3DownloadGui.py:35-40 | with at least `limit` panels, all carrying audio, the search returns exactly the first `limit` of them |
| Scrape.SearchCanUnderfill | mp3DownloadGui.py:35-39 | the limit is taken before the audio filter: with limit 2, a page of [silent, a, b] gives only [a] although it holds two tracks |
| Scrape.Entry | mp3DownloadGui.py:49-52 | an artist record's url is the resolved href, and its name is the link text, or "Unknown" when that is empty |
| Scrape.DedupFrom | mp3DownloadGui.py:48-52 | the artist loop keeps its invariant: distinct urls, every url seen so far, each record from its url's first link, in first-occurrence order |
| Scrape.FindArtists | mp3DownloadGui.py:47-53 | artist urls are pairwise distinct, every resolved href is among them, each record carries its url's first link text (or "Unknown"), and records follow first occurrence |
| Scrape.FindArtistsCount | mp3DownloadGui.py:48-53 | there are exactly as many artists as distinct resolved hrefs |
| Catalog.SearchUrl | mp3DownloadGui.py:27-31 | a query starting with "http" is used as the url; any other is quoted and appended to the search endpoint `BASE + "/search?q="` |
| Catalog.FindTracksFromSearch | mp3DownloadGui.py:26-41 | the search fails exactly when the search url cannot be fetched, with that url's error; otherwise its tracks are the panel records of the fetched page cut to `limit`, so at most `limit` tracks, each with a url |
| Catalog.FindAllArtistsByName | mp3DownloadGui.py:43-53 | the artist search fails exactly when its one fetch of the search endpoint fails, with that url's `HttpError`; otherwise its artists are the de-duplicated artist links of the fetched page, with distinct urls |
| Catalog.NextUrl | mp3DownloadGui.py:67-71 | a next link with a non-empty href continues the walk at that href resolved against the site, and the walk continues in no other way; a page without the link ends it |
| Catalog.Walk | mp3DownloadGui.py:55-72 | an empty url returns no tracks without fetching; otherwise the first fetch is the start url, no fetched url is empty, and there is at most one fetch per step |
| Catalog.WalkSound | mp3DownloadGui.py:55-72 | a walk that succeeds fetched a whole pagination chain (each page links to the next by a non-empty href, the last has none) and returned the pages' tracks concatenated in visit order |
| Catalog.WalkComplete | mp3DownloadGui.py:55-72 | given a pagination chain and enough steps, the walk fetches exactly that chain, once per page, and returns its tracks |
| Catalog.WalkMoreFuel | mp3DownloadGui.py:58-71 | the step bound is not observable once a walk has succeeded |
| Catalog.WalkStopsAtFailure | mp3DownloadGui.py:58-59 | a fetch error ends the whole walk: the failing url is the last fetched, and every earlier page was served and linked to the next |
| Catalog.CollectTracksFromArtist | mp3DownloadGui.py:55-72 | a catalog that succeeds returns the tracks of a whole pagination chain from the artist url, and every chain within the step budget is collected completely; a failure is either the `HttpError` of the last url fetched, which is not served, or the step budget used up |
| Catalog.WalkFailure | mp3DownloadGui.py:58-59 | a walk fails only when a fetch raises, with the `HttpError` of that url, the last fetched, or when its step budget runs out after `fuel` fetches |
| Catalog.WalkSelfLinkDiverges | mp3DownloadGui.py:58-69 | a page whose next link resolves to itself keeps the loop fetching it forever |
| Download.NonEmpty | mp3DownloadGui.py:81-82 | the `if chunk:` filter keeps only non-empty chunks, never more than there were |
| Download.NonEmptyAppend | mp3DownloadGui.py:81-82 | the filter works chunk by chunk: filtering two chunk lists joined is joining their filtered lists |
| Download.NonEmptySingle | mp3DownloadGui.py:81-82 | a single chunk is kept exactly when it is non-empty |
| Download.StreamWritesAll | mp3DownloadGui.py:80-83 | the chunk loop writes every chunk's bytes to the file, in order |
| Download.StreamReports | mp3DownloadGui.py:80-86 | the chunk loop reports one fraction per non-empty chunk when a callback is given and the total is positive, none otherwise, and fraction k is the bytes written after k+1 non-empty chunks over the total |
| Download.DownloadFile | mp3DownloadGui.py:74-86 | a failed GET or an unparsable content-length leaves no file; otherwise the file holds all chunks in order, a stream error is still raised, one fraction is reported per non-empty chunk exactly when a callback is given and the declared total is positive, and fraction k is the bytes after k+1 non-empty chunks over the total |
| Download.FlattenNonEmpty | mp3DownloadGui.py:81-83 | skipping empty chunks does not change the bytes written |
| Download.DownloadProgressIncreasing | mp3DownloadGui.py:84-86 | the reported fractions strictly increase |
| Download.DownloadProgressEndsAtFileSize | mp3DownloadGui.py:78-86 | the last fraction is the file size over the declared total |
| Download.DownloadProgressAtMostOne | mp3DownloadGui.py:78-86 | when the server declares at least what it sends, every fraction is in (0, 1] and the last is 1 exactly when the declaration was exact |
| Download.UnderDeclaredExceedsOne | mp3DownloadGui.py:78-86 | fractions are not clamped: two bytes under a declared length of 1 report 2 |
| Batch.Selected | mp3DownloadGui.py:351 | `zip` stops at the shorter list, so the selection is no longer than the tracks or the check boxes |
| Batch.SelectedMembership | mp3DownloadGui.py:351 | a track is selected exactly when some ticked row (within the shorter of the two lists) holds it |
| Batch.SelectedAppend | mp3DownloadGui.py:351 | selection keeps list order: the selection of two lists of rows is the two selections, in order |
| Batch.FileName | mp3DownloadGui.py:366 | the file name built from "artist - title.mp3" is safe (no reserved character, no leading, trailing or doubled whitespace) and still ends in ".mp3" |
| Batch.PlanPaths | mp3DownloadGui.py:365-367 | download k fetches the url of selected track k into the folder, under a safe name ending in ".mp3" |
| Batch.RunFrom | mp3DownloadGui.py:362-378 | the worker attempts each planned download exactly once, in order, whatever earlier downloads did; the progress of file i of n depends on its own download only: its fractions p are set as (i-1)/n + p/n through the callback, then i/n after the file |
| Batch.OverallWithin | mp3DownloadGui.py:367-370 | for p in (0, 1], file i's overall progress lies in ((i-1)/n, i/n] |
| Batch.OverallMonotone | mp3DownloadGui.py:367-370 | the mapping to overall progress keeps the order of per-file fractions |
| Batch.StepClimbs | mp3DownloadGui.py:366-377 | with an honest server (one that declares no length, or a positive length no smaller than what it sends), the values set during file i are sorted and lie between (i-1)/n and its after-file value i/n |
| Batch.RunFromClimbs | mp3DownloadGui.py:362-378 | with honest servers, each file's progress starts no lower than where the previous file left it |
| Batch.RunProgressMonotone | mp3DownloadGui.py:362-378 | with honest servers, the whole sequence of progress values of a batch is sorted, lies in [0, 1] and ends at 1 |
| Batch.PlanHonest | mp3DownloadGui.py:365-374 | when every selected track's server is honest, so is the server of every planned download |
| Batch.BatchProgressMonotone | mp3DownloadGui.py:345-378 | the same for a batch `start_download` runs, when every selected track's server is honest |
| Batch.UnderDeclaredMovesBackwards | mp3DownloadGui.py:367-377 | an under-declaring server makes the bar move backwards: 1.0 during file 1 of 2, then 0.5 after it |
| Batch.RunFromDisk | mp3DownloadGui.py:364-374 | each path ends up holding the file of the last download that opened it, and every other path keeps its contents; failed downloads that opened a file leave what they wrote |
| Batch.Worker | mp3DownloadGui.py:362-378 | for a non-empty selection every track is attempted once in order under its sanitised name, after file k of n the progress is k/n, and after the last it is 1 |
| Batch.StartDownload | mp3DownloadGui.py:345-378 | an empty folder is refused first, then an empty selection; the batch runs exactly when both are present, attempting every selected track once in order under its sanitised name, with progress k/n after file k and 1 at the end |
| Dispatch.Decide | mp3DownloadGui.py:231-262 | an all-whitespace query is refused; otherwise the stripped query is searched in "search" mode, walked as a catalog in artist mode when it starts with "http" or is all digits, and searched as an artist name otherwise |
| Dispatch.Collected | mp3DownloadGui.py:259-261 | a catalog walk ends in its tracks listed ticked, or in the error it raised |
| Dispatch.SearchWorker | mp3DownloadGui.py:230-266 | no work for an empty query; search results are listed unchecked and catalogs ticked; a search failure is reported; an artist-mode url or number walks that catalog; an artist name is searched, and the outcome is the search's error, "not found" when it finds no artist, the walk of the one artist's catalog when it finds exactly one, and the choice dialog over the found artists when it finds more |
| Dispatch.OnArtistChosen | mp3DownloadGui.py:281-299 | nothing happens until a row is selected; then exactly the selected artist's catalog url is walked, its tracks listed ticked or its error reported |
| Dispatch.DefaultSelection | mp3DownloadGui.py:308-313 | untouched boxes select every listed track when ticked and none when not |
| Dispatch.DownloadUntouched | mp3DownloadGui.py:346-354 | downloading an untouched list is refused for want of a folder first; an unchecked (search) list is then refused as empty; a ticked (catalog) list downloads every track in order |

## Left out

- The tkinter window, widgets, message boxes, status texts, the scrollable list and the "Открыть" button (`webbrowser`). They only render state.
- Threads and `root.after`. Each worker is one sequential function. The after-file lambda reads `i` when the main loop runs it, not when it is queued. That race can show a later file's value and is not modelled: the model sets i/n for file i.
- The reset of the progress bar to 0 when the batch ends and in `show_tracks`, and the ×100 scaling to percent. Progress is kept as a fraction.
- `requests`: headers, timeouts, sessions and `raise_for_status`. A fetch either yields a page or response or raises `HttpError(url)`. A broken stream is the error raised after the chunks that did arrive.
- `iter_content(8192)` chunk sizes. Chunks are any byte sequences.
- BeautifulSoup. A page is the nodes the CSS selectors pick, reduced to the attributes read from them, with link text already stripped by `get_text(strip=True)`.
- `quote_plus`, `urljoin` and `os.path.join`. They are uninterpreted function parameters.
- Floating-point rounding of progress values. Exact reals are used.
- The `print` of a failed download. Failures are swallowed and the loop goes on, which is modelled.
- Catalog.Walk: the `while page_url:` loop is unbounded, so it gets a step budget (`fuel`). Running out of it is the distinct error `OutOfFuel`, and `WalkMoreFuel`/`WalkComplete` show that the budget is unobservable once it suffices.
- Download.DownloadFile: `open(path, "wb")` and `f.write` are assumed to succeed whenever the GET and the content-length header do. A missing folder, a permission error or an over-long name would raise there, and that failure is not modelled, so Batch.RunFromDisk makes the same assumption.
- Dispatch.Decide: `str.isdigit` is modelled for the ASCII digits 0-9 only. Python also accepts other Unicode digits, such as superscripts.

=== FILE: batch.dfy ===
/**
 * `start_download` and its worker: the guards, the selection of ticked
 * tracks, and the sequential batch that downloads each selected track once,
 * swallows per-file failures, and turns per-file fractions into overall
 * progress.  The filesystem is a map from path to contents; `os.path.join`
 * and the network are passed in as functions.
 */
module Batch {
  import opened Outcomes
  import opened Strings
  import opened Sanitize
  import opened Scrape
  import opened Errors
  import opened Download

  /** The tracks whose check box is ticked, in list order; `zip` stops at the shorter list. */
  function Selected(tracks: seq<Track>, checks: seq<bool>): (r: seq<Track>)
    ensures |r| <= |tracks| && |r| <= |checks|
  {
    if tracks == [] || checks == [] then []
    else (if checks[0] then [tracks[0]] else []) + Selected(tracks[1..], checks[1..])
  }

  /** A track is selected exactly when some ticked row holds it. */
  lemma {:induction false} SelectedMembership(tracks: seq<Track>, checks: seq<bool>, t: Track)
    ensures t in Selected(tracks, checks) <==>
      exists i :: 0 <= i < |tracks| && i < |checks| && checks[i] && tracks[i] == t
  {
    if tracks != [] && checks != [] {
      SelectedMembership(tracks[1..], checks[1..], t);
      if exists i :: 0 <= i < |tracks| && i < |checks| && checks[i] && tracks[i] == t {
        var i :| 0 <= i < |tracks| && i < |checks| && checks[i] && tracks[i] == t;
        if i > 0 {
          assert tracks[1..][i - 1] == tracks[i] && checks[1..][i - 1] == checks[i];
        }
      }
      if exists j :: 0 <= j < |tracks[1..]| && j < |checks[1..]| && checks[1..][j] && tracks[1..][j] == t {
        var j :| 0 <= j < |tracks[1..]| && j < |checks[1..]| && checks[1..][j] && tracks[1..][j] == t;
        assert tracks[j + 1] == t && checks[j + 1];
      }
    }
  }

  /** Selection keeps list order: rows before rows. */
  lemma {:induction false} SelectedAppend(a: seq<Track>, b: seq<Track>, ca: seq<bool>, cb: seq<bool>)
    requires |a| == |ca|
    ensures Selected(a + b, ca + cb) == Selected(a, ca) + Selected(b, cb)
  {
    if a == [] {
      assert a + b == b && ca + cb == cb;
    } else {
      assert (a + b)[1..] == a[1..] + b && (ca + cb)[1..] == ca[1..] + cb;
      SelectedAppend(a[1..], b, ca[1..], cb);
    }
  }

  /**
   * The file name of a track, `safe_filename(f"{artist} - {title}.mp3")`:
   * a safe name that keeps the ".mp3" extension.
   */
  function FileName(t: Track): (n: string)
    ensures IsSafe(n)
    ensures EndsWith(n, ".mp3")
  {
    var stem := t.artist + " - " + t.title;
    var name := stem + ".mp3";
    assert name == t.artist + " - " + t.title + ".mp3";
    SafeFilenameIsSafe(name);
    ExtensionIsWord();
    SafeFilenameKeepsSuffix(stem, ".mp3");
    SafeFilename(name)
  }

  /** ".mp3" holds neither whitespace nor a reserved character. */
  lemma ExtensionIsWord()
    ensures NoReserved(".mp3")
    ensures forall i :: 0 <= i < |".mp3"| ==> !IsSpace(".mp3"[i])
  {
    var e := ".mp3";
    assert e[0] == '.' && e[1] == 'm' && e[2] == 'p' && e[3] == '3';
  }

  /** One attempted download: the url fetched and the path written. */
  datatype Attempt = Attempt(url: string, path: string)

  /** The url and destination path the loop body computes for `t`. */
  function AttemptFor(folder: string, join: (string, string) -> string, t: Track): Attempt {
    Attempt(t.url, join(folder, FileName(t)))
  }

  /** The loop body's url and path for every selected track, in order. */
  function Plan(selected: seq<Track>, folder: string, join: (string, string) -> string): (plan: seq<Attempt>)
    ensures |plan| == |selected|
    ensures forall k :: 0 <= k < |selected| ==> plan[k] == AttemptFor(folder, join, selected[k])
  {
    seq(|selected|, k requires 0 <= k < |selected| => AttemptFor(folder, join, selected[k]))
  }

  /**
   * Each planned download fetches its track's url into the folder, under a
   * safe name that keeps the ".mp3" extension.
   */
  lemma PlanPaths(selected: seq<Track>, folder: string, join: (string, string) -> string)
    ensures var plan := Plan(selected, folder, join);
      forall k :: 0 <= k < |plan| ==>
        plan[k].url == selected[k].url &&
        exists name :: plan[k].path == join(folder, name) && IsSafe(name) && EndsWith(name, ".mp3")
  {
    var plan := Plan(selected, folder, join);
    forall k | 0 <= k < |plan|
      ensures exists name :: plan[k].path == join(folder, name) && IsSafe(name) && EndsWith(name, ".mp3")
    {
      var name := FileName(selected[k]);
      assert plan[k].path == join(folder, name);
    }
  }

  /** The progress-bar fractions set for one file: through the callback, then after the file. */
  datatype FileReport = FileReport(during: seq<real>, after: real)

  /** Why `start_download` refused to start. */
  datatype Rejection = NoFolder | NothingSelected

  type Disk = map<string, Bytes>

  /** What the worker did: the downloads attempted, the progress set for each, and the files left behind. */
  datatype Run = Run(attempts: seq<Attempt>, reports: seq<FileReport>, disk: Disk)

  /** What `start_download` did: refused with a message box, or ran the worker. */
  datatype StartResult = Rejected(reason: Rejection) | Ran(run: Run)

  /** `m / n` as an exact fraction. */
  function Fraction(m: int, n: nat): real
    requires n > 0
  {
    m as real / n as real
  }

  /** The `prog` callback of file `idx` (1-based) of `n`: `(idx - 1) / n + p / n`. */
  function Overall(idx: nat, n: nat, p: real): real
    requires n > 0
  {
    Fraction(idx - 1, n) + p / n as real
  }

  lemma FractionWhole(n: nat)
    requires n > 0
    ensures Fraction(n, n) == 1.0
  {
  }

  lemma FractionZero(n: nat)
    requires n > 0
    ensures Fraction(0, n) == 0.0
  {
  }

  /** The per-file fractions `ps`, as overall fractions of file `idx` of `n`. */
  function ScaleProgress(idx: nat, n: nat, ps: seq<real>): (r: seq<real>)
    requires n > 0
    ensures |r| == |ps|
    ensures forall k :: 0 <= k < |ps| ==> r[k] == Overall(idx, n, ps[k])
  {
    if ps == [] then [] else [Overall(idx, n, ps[0])] + ScaleProgress(idx, n, ps[1..])
  }

  /** A per-file fraction in (0, 1] lands strictly after the files before and at most at the files so far. */
  lemma OverallWithin(idx: nat, n: nat, p: real)
    requires 1 <= idx <= n
    requires 0.0 < p <= 1.0
    ensures Fraction(idx - 1, n) < Overall(idx, n, p) <= Fraction(idx, n)
  {
  }

  /** Rescaling keeps the order of per-file fractions. */
  lemma OverallMonotone(idx: nat, n: nat, p: real, q: real)
    requires n > 0 && p < q
    ensures Overall(idx, n, p) < Overall(idx, n, q)
  {
  }

  /** What the download of `a` returns; `prog` is always passed. */
  function Fetched(net: string -> Result<Response, Error>, a: Attempt): Download {
    DownloadFile(net(a.url), true)
  }

  /**
   * The progress set for file `idx` (1-based) of `n`: the download's
   * fractions through the `prog` callback, then `idx / n` after the file.
   */
  function ReportFor(a: Attempt, idx: nat, n: nat, net: string -> Result<Response, Error>): FileReport
    requires n > 0
  {
    FileReport(ScaleProgress(idx, n, Fetched(net, a).progress), Fraction(idx, n))
  }

  /** The folder after the download of `a`: the file at its path, when the download opened it. */
  function Store(net: string -> Result<Response, Error>, a: Attempt, disk: Disk): Disk {
    var d := Fetched(net, a);
    if d.file.Some? then disk[a.path := d.file.value] else disk
  }

  /**
   * The worker's `for i, track in enumerate(selected_tracks, start=1)` loop
   * from the `i`-th planned download (0-based) on.  A failed download is
   * caught and the loop goes on; a file that was opened keeps whatever was
   * written to it.
   */
  function RunFrom(plan: seq<Attempt>, net: string -> Result<Response, Error>, i: nat, disk: Disk): (r: Run)
    requires i <= |plan|
    ensures |r.attempts| == |plan| - i && |r.reports| == |plan| - i
    ensures forall k :: 0 <= k < |r.attempts| ==> r.attempts[k] == plan[i + k]
    ensures forall k :: 0 <= k < |r.reports| ==> r.reports[k] == ReportFor(plan[i + k], i + k + 1, |plan|, net)
    decreases |plan| - i
  {
    if i == |plan| then Run([], [], disk)
    else
      var rest := RunFrom(plan, net, i + 1, Store(net, plan[i], disk));
      Run([plan[i]] + rest.attempts, [ReportFor(plan[i], i + 1, |plan|, net)] + rest.reports, rest.disk)
  }

  /** Non-decreasing. */
  predicate Sorted(xs: seq<real>) {
    forall i, j :: 0 <= i < j < |xs| ==> xs[i] <= xs[j]
  }

  /** Every value the progress bar is set to, in order: each file's callback values, then its after-file value. */
  function Emitted(reports: seq<FileReport>): (r: seq<real>)
    ensures reports != [] ==> |r| > 0 && r[|r| - 1] == reports[|reports| - 1].after
  {
    if reports == [] then []
    else reports[0].during + [reports[0].after] + Emitted(reports[1..])
  }

  /**
   * One file's report climbs from `floor`: its callback values are sorted,
   * lie between `floor` and its after-file value, and that value is at
   * least `floor`.
   */
  predicate ClimbsFrom(report: FileReport, floor: real) {
    && Sorted(report.during)
    && floor <= report.after
    && (forall k :: 0 <= k < |report.during| ==> floor <= report.during[k] <= report.after)
  }

  /** Each report climbs from the previous report's after-file value (`floor` for the first). */
  ghost predicate Climbs(reports: seq<FileReport>, floor: real) {
    reports != [] ==> ClimbsFrom(reports[0], floor) && Climbs(reports[1..], reports[0].after)
  }

  lemma SortedConcat(a: seq<real>, b: seq<real>)
    requires Sorted(a) && Sorted(b)
    requires forall i, j :: 0 <= i < |a| && 0 <= j < |b| ==> a[i] <= b[j]
    ensures Sorted(a + b)
  {
  }

  /** Reports that climb emit a sorted stream that starts no lower than `floor`. */
  lemma {:induction false} ClimbsEmitsSorted(reports: seq<FileReport>, floor: real)
    requires Climbs(reports, floor)
    ensures Sorted(Emitted(reports))
    ensures forall k :: 0 <= k < |Emitted(reports)| ==> floor <= Emitted(reports)[k]
  {
    if reports != [] {
      var head := reports[0].during + [reports[0].after];
      var tail := Emitted(reports[1..]);
      ClimbsEmitsSorted(reports[1..], reports[0].after);
      assert Sorted(head);
      assert forall i, j :: 0 <= i < |head| && 0 <= j < |tail| ==> head[i] <= tail[j] by {
        forall i, j | 0 <= i < |head| && 0 <= j < |tail|
          ensures head[i] <= tail[j]
        {
          assert head[i] <= reports[0].after;
        }
      }
      SortedConcat(head, tail);
      assert Emitted(reports) == head + tail;
    }
  }

  /**
   * A server that declares a positive length sends no more bytes than it
   * declares.  A failed request, a malformed header and a missing or zero
   * length produce no fraction at all, so they are honest whatever they send.
   */
  predicate Honest(reply: Result<Response, Error>) {
    reply.Success? && !reply.value.length.Malformed? && DeclaredTotal(reply.value.length) > 0 ==>
      |Flatten(reply.value.chunks)| <= DeclaredTotal(reply.value.length)
  }

  /** One file's report climbs from `Fraction(idx - 1, n)` to `Fraction(idx, n)` when its server is honest. */
  lemma StepClimbs(a: Attempt, idx: nat, n: nat, net: string -> Result<Response, Error>)
    requires 1 <= idx <= n
    requires Honest(net(a.url))
    ensures ClimbsFrom(ReportFor(a, idx, n, net), Fraction(idx - 1, n))
    ensures ReportFor(a, idx, n, net).after == Fraction(idx, n)
  {
    var d := Fetched(net, a);
    var r := ReportFor(a, idx, n, net);
    DownloadProgressIncreasing(net(a.url), true);
    if d.progress != [] {
      DownloadProgressAtMostOne(net(a.url), true);
    }
    forall i, j | 0 <= i < j < |r.during|
      ensures r.during[i] <= r.during[j]
    {
      OverallMonotone(idx, n, d.progress[i], d.progress[j]);
    }
    forall k | 0 <= k < |r.during|
      ensures Fraction(idx - 1, n) <= r.during[k] <= r.after
    {
      OverallWithin(idx, n, d.progress[k]);
    }
    FractionStep(idx - 1, n);
  }

  lemma FractionStep(i: nat, n: nat)
    requires i < n
    ensures Fraction(i, n) <= Fraction(i + 1, n)
  {
  }

  /** From the `i`-th download on, with honest servers, the reports climb from `i / n`. */
  lemma {:induction false} RunFromClimbs(plan: seq<Attempt>, net: string -> Result<Response, Error>, i: nat, disk: Disk)
    requires 0 < |plan| && i <= |plan|
    requires forall k :: i <= k < |plan| ==> Honest(net(plan[k].url))
    ensures Climbs(RunFrom(plan, net, i, disk).reports, Fraction(i, |plan|))
    decreases |plan| - i
  {
    if i < |plan| {
      var r := RunFrom(plan, net, i, disk);
      var rest := RunFrom(plan, net, i + 1, Store(net, plan[i], disk));
      var head := ReportFor(plan[i], i + 1, |plan|, net);
      assert r.reports == [head] + rest.reports;
      StepClimbs(plan[i], i + 1, |plan|, net);
      RunFromClimbs(plan, net, i + 1, Store(net, plan[i], disk));
      assert r.reports[1..] == rest.reports;
    }
  }

  /** After the last file of a plan the bar reads 1. */
  lemma RunFromEndsAtOne(plan: seq<Attempt>, net: string -> Result<Response, Error>, disk: Disk)
    requires 0 < |plan|
    ensures RunFrom(plan, net, 0, disk).reports[|plan| - 1].after == 1.0
  {
    assert RunFrom(plan, net, 0, disk).reports[|plan| - 1].after == Fraction(|plan|, |plan|);
    FractionWhole(|plan|);
  }

  /** The progress bar over a whole non-empty plan of honest downloads: sorted, within [0, 1], ending at 1. */
  lemma RunProgressMonotone(plan: seq<Attempt>, net: string -> Result<Response, Error>, disk: Disk)
    requires 0 < |plan|
    requires forall k :: 0 <= k < |plan| ==> Honest(net(plan[k].url))
    ensures var e := Emitted(RunFrom(plan, net, 0, disk).reports);
      && Sorted(e)
      && (forall k :: 0 <= k < |e| ==> 0.0 <= e[k] <= 1.0)
      && e[|e| - 1] == 1.0
  {
    var reports := RunFrom(plan, net, 0, disk).reports;
    RunFromClimbs(plan, net, 0, disk);
    ClimbsEmitsSorted(reports, Fraction(0, |plan|));
    RunFromEndsAtOne(plan, net, disk);
    FractionZero(|plan|);
    var e := Emitted(reports);
    forall k | 0 <= k < |e|
      ensures 0.0 <= e[k] <= 1.0
    {
      if k < |e| - 1 {
        assert e[k] <= e[|e| - 1];
      }
    }
  }

  /**
   * When every selected track's server is honest (it declares no length,
   * or a positive one at least as large as what it sends), the progress bar
   * never moves backwards over the whole batch, stays within [0, 1] and
   * ends at 1.
   */
  lemma BatchProgressMonotone(tracks: seq<Track>, checks: seq<bool>, folder: string,
                              join: (string, string) -> string, net: string -> Result<Response, Error>, disk: Disk)
    requires folder != [] && Selected(tracks, checks) != []
    requires forall t :: t in Selected(tracks, checks) ==> Honest(net(t.url))
    ensures var e := Emitted(StartDownload(tracks, checks, folder, join, net, disk).run.reports);
      && Sorted(e)
      && (forall k :: 0 <= k < |e| ==> 0.0 <= e[k] <= 1.0)
      && e[|e| - 1] == 1.0
  {
    var selected := Selected(tracks, checks);
    var plan := Plan(selected, folder, join);
    assert StartDownload(tracks, checks, folder, join, net, disk).run == RunFrom(plan, net, 0, disk);
    PlanHonest(selected, folder, join, net);
    RunProgressMonotone(plan, net, disk);
  }

  lemma PlanHonest(selected: seq<Track>, folder: string, join: (string, string) -> string,
                   net: string -> Result<Response, Error>)
    requires forall t :: t in selected ==> Honest(net(t.url))
    ensures var plan := Plan(selected, folder, join);
      forall k :: 0 <= k < |plan| ==> Honest(net(plan[k].url))
  {
    var plan := Plan(selected, folder, join);
    forall k | 0 <= k < |plan|
      ensures Honest(net(plan[k].url))
    {
      assert plan[k].url == selected[k].url;
      assert selected[k] in selected;
    }
  }

  /**
   * A server that under-declares its length drives the bar past the next
   * file's after-file value, so the bar moves backwards: file 1 of 2 sends
   * 2 bytes after declaring 1, reaches 1.0, then the bar drops to 0.5.
   */
  lemma UnderDeclaredMovesBackwards()
    ensures var plan := [Attempt("a", "x"), Attempt("b", "y")];
      var net := (u: string) => if u == "a" then Success(Response(Declared(1), [[0, 0]], None)) else Failure(HttpError(u));
      var e := Emitted(RunFrom(plan, net, 0, map[]).reports);
      e[..2] == [1.0, 0.5] && !Sorted(e)
  {
    var plan := [Attempt("a", "x"), Attempt("b", "y")];
    var net := (u: string) => if u == "a" then Success(Response(Declared(1), [[0, 0]], None)) else Failure(HttpError(u));
    UnderDeclaredExceedsOne();
    var r := RunFrom(plan, net, 0, map[]);
    assert r.reports[0] == FileReport([1.0], 0.5);
    var e := Emitted(r.reports);
    assert e[..2] == [1.0, 0.5];
    assert e[0] == 1.0 && e[1] == 0.5;
    assert !(e[0] <= e[1]);
  }

  /** The contents a map holds at `path`, if any. */
  function Lookup(disk: Disk, path: string): Option<Bytes> {
    if path in disk then Some(disk[path]) else None
  }

  /** The contents left at `path` by the last download from the `i`-th on that opened a file there. */
  function LastWrite(plan: seq<Attempt>, net: string -> Result<Response, Error>, i: nat, path: string): Option<Bytes>
    requires i <= |plan|
    decreases |plan| - i
  {
    if i == |plan| then None
    else match LastWrite(plan, net, i + 1, path)
      case Some(bytes) => Some(bytes)
      case None =>
        if plan[i].path == path && Fetched(net, plan[i]).file.Some? then Fetched(net, plan[i]).file else None
  }

  /**
   * Each path ends up with the file of the last download that opened it
   * (same-named tracks overwrite one another, a failed download does not
   * undo an earlier one); every other path keeps what it held.
   */
  lemma {:induction false} RunFromDisk(plan: seq<Attempt>, net: string -> Result<Response, Error>, i: nat, disk: Disk, path: string)
    requires i <= |plan|
    ensures Lookup(RunFrom(plan, net, i, disk).disk, path) ==
      match LastWrite(plan, net, i, path)
      case Some(bytes) => Some(bytes)
      case None => Lookup(disk, path)
    decreases |plan| - i
  {
    if i < |plan| {
      RunFromDisk(plan, net, i + 1, Store(net, plan[i], disk), path);
    }
  }

  /**
   * The worker of `start_download` for a non-empty selection: every selected
   * track is attempted once, in order, under its sanitised name, and the
   * fraction set after file `k` of `n` is `k / n`, reaching 1 after the last.
   */
  function Worker(selected: seq<Track>, folder: string, join: (string, string) -> string,
                  net: string -> Result<Response, Error>, disk: Disk): (r: Run)
    requires selected != []
    ensures |r.attempts| == |selected| && |r.reports| == |selected|
    ensures forall k :: 0 <= k < |selected| ==> r.attempts[k] == AttemptFor(folder, join, selected[k])
    ensures forall k :: 0 <= k < |selected| ==> r.reports[k].after == Fraction(k + 1, |selected|)
    ensures r.reports[|selected| - 1].after == 1.0
  {
    var plan := Plan(selected, folder, join);
    var r := RunFrom(plan, net, 0, disk);
    forall k | 0 <= k < |selected|
      ensures r.reports[k].after == Fraction(k + 1, |selected|)
    {
      assert r.reports[k] == ReportFor(plan[0 + k], 0 + k + 1, |plan|, net);
    }
    RunFromEndsAtOne(plan, net, disk);
    r
  }

  /**
   * `start_download`: a missing folder is refused first, then an empty
   * selection; otherwise the worker runs over the selected tracks.
   */
  function StartDownload(tracks: seq<Track>, checks: seq<bool>, folder: string,
                         join: (string, string) -> string, net: string -> Result<Response, Error>,
                         disk: Disk): (b: StartResult)
    ensures b == Rejected(NoFolder) <==> folder == []
    ensures b == Rejected(NothingSelected) <==> folder != [] && Selected(tracks, checks) == []
    ensures b.Ran? ==>
      && 0 < |Selected(tracks, checks)| == |b.run.attempts| == |b.run.reports|
      && (forall k :: 0 <= k < |b.run.attempts| ==>
            b.run.attempts[k] == AttemptFor(folder, join, Selected(tracks, checks)[k]))
      && (forall k :: 0 <= k < |b.run.reports| ==>
            b.run.reports[k].after == Fraction(k + 1, |b.run.reports|))
      && b.run.reports[|b.run.reports| - 1].after == 1.0
  {
    if folder == [] then Rejected(NoFolder)
    else
      var selected := Selected(tracks, checks);
      if selected == [] then Rejected(NothingSelected)
      else Ran(Worker(selected, folder, join, net, disk))
  }
}

=== FILE: catalog.dfy ===
/**
 * The network side of the scraper: fetching a page, the single-page track
 * and artist searches, and the pagination walk over an artist's catalog.
 *
 * The site is a `Web`: a map from url to the nodes the CSS selection would
 * pick out of that page.  A url outside the map is a fetch that raises
 * (connection failure, timeout or a non-2xx status).  `urljoin(BASE, _)` and
 * `quote_plus` are passed in as functions.
 */
module Catalog {
  import opened Outcomes
  import opened Errors
  import opened Strings
  import opened Scrape

  const Base: string := "https://mp3party.net"

  /**
   * One fetched page, reduced to what the scraper selects from it: the
   * track panels, the artist links, and the `href` of the `.paginate
   * a.next_page` anchor (`None` when there is no such anchor or it has no
   * `href` attribute).
   */
  datatype Page = Page(panels: seq<Panel>, artistLinks: seq<ArtistLink>, nextHref: Option<string>)

  type Web = map<string, Page>

  /** `get_soup(url)`: one GET. */
  function GetPage(web: Web, url: string): Result<Page, Error> {
    if url in web then Success(web[url]) else Failure(HttpError(url))
  }

  /** The url fetched by a search: the query itself when it starts with "http", the search endpoint otherwise. */
  function SearchUrl(queryOrUrl: string, quote: string -> string): (u: string)
    ensures StartsWith(queryOrUrl, "http") ==> u == queryOrUrl
    ensures !StartsWith(queryOrUrl, "http") ==> StartsWith(u, Base + "/search?q=") && u[|Base + "/search?q="|..] == quote(queryOrUrl)
  {
    if StartsWith(queryOrUrl, "http") then queryOrUrl else Base + "/search?q=" + quote(queryOrUrl)
  }

  /**
   * `find_tracks_from_search`: one fetch, then the first `limit` panels
   * filtered for audio.  It fails exactly when the fetch fails.
   */
  function FindTracksFromSearch(web: Web, quote: string -> string, queryOrUrl: string, limit: int): (r: Result<seq<Track>, Error>)
    ensures r.Failure? <==> SearchUrl(queryOrUrl, quote) !in web
    ensures r.Failure? ==> r.error == HttpError(SearchUrl(queryOrUrl, quote))
    ensures r.Success? && 0 <= limit ==> |r.value| <= limit
    ensures r.Success? ==> forall t :: t in r.value ==> t.url != []
    ensures r.Success? ==> r.value == SearchPanels(web[SearchUrl(queryOrUrl, quote)].panels, limit)
  {
    var page :- GetPage(web, SearchUrl(queryOrUrl, quote));
    Success(SearchPanels(page.panels, limit))
  }

  /**
   * `find_all_artists_by_name`: one fetch of the search endpoint for `name`,
   * then the de-duplicated artist links.  It fails exactly when the fetch fails.
   */
  function FindAllArtistsByName(web: Web, quote: string -> string, resolve: string -> string, name: string): (r: Result<seq<Artist>, Error>)
    ensures r.Failure? <==> Base + "/search?q=" + quote(name) !in web
    ensures r.Success? ==> forall k1, k2 :: 0 <= k1 < k2 < |r.value| ==> r.value[k1].url != r.value[k2].url
    ensures r.Failure? ==> r.error == HttpError(Base + "/search?q=" + quote(name))
    ensures r.Success? ==> r.value == FindArtists(web[Base + "/search?q=" + quote(name)].artistLinks, resolve)
  {
    var page :- GetPage(web, Base + "/search?q=" + quote(name));
    Success(FindArtists(page.artistLinks, resolve))
  }

  /** The url the walk moves to after `page`, or "" when it stops there. */
  function NextUrl(page: Page, resolve: string -> string): (u: string)
    ensures u != [] ==> page.nextHref.Some? && page.nextHref.value != [] && u == resolve(page.nextHref.value)
    ensures page.nextHref.Some? && page.nextHref.value != [] ==> u == resolve(page.nextHref.value)
    ensures page.nextHref.None? ==> u == []
  {
    match page.nextHref
    case Some(href) => if href != [] then resolve(href) else []
    case None => []
  }

  /** The urls fetched by a walk, in order, and what it returned. */
  datatype Walked = Walked(fetched: seq<string>, tracks: Result<seq<Track>, Error>)

  /**
   * The `while page_url:` loop of `collect_tracks_from_artist`, given at most
   * `fuel` iterations.  An empty url ends the walk without a fetch; a failed
   * fetch ends it with that error and no tracks.
   */
  function Walk(web: Web, resolve: string -> string, url: string, fuel: nat): (w: Walked)
    ensures url == [] ==> w == Walked([], Success([]))
    ensures |w.fetched| <= fuel
    ensures forall k :: 0 <= k < |w.fetched| ==> w.fetched[k] != []
    ensures url != [] && fuel > 0 ==> w.fetched != [] && w.fetched[0] == url
    decreases fuel
  {
    if url == [] then Walked([], Success([]))
    else if fuel == 0 then Walked([], Failure(OutOfFuel))
    else match GetPage(web, url)
      case Failure(e) => Walked([url], Failure(e))
      case Success(page) =>
        var here := ExtractTracks(page.panels);
        var rest := Walk(web, resolve, NextUrl(page, resolve), fuel - 1);
        Walked([url] + rest.fetched,
               match rest.tracks
               case Success(more) => Success(here + more)
               case Failure(e) => Failure(e))
  }

  /**
   * `collect_tracks_from_artist(artist_url)`: the tracks of the whole
   * pagination chain from `artistUrl`, page after page.
   */
  function CollectTracksFromArtist(web: Web, resolve: string -> string, artistUrl: string, fuel: nat): (r: Result<seq<Track>, Error>)
    ensures r.Success? ==>
      var urls := Walk(web, resolve, artistUrl, fuel).fetched;
      IsChain(web, resolve, artistUrl, urls) && r.value == CatalogTracks(web, urls)
    ensures forall urls :: IsChain(web, resolve, artistUrl, urls) && |urls| <= fuel ==>
      r == Success(CatalogTracks(web, urls))
    ensures r.Failure? ==>
      var fetched := Walk(web, resolve, artistUrl, fuel).fetched;
      || (r.error == OutOfFuel && |fetched| == fuel)
      || (fetched != [] && r.error == HttpError(fetched[|fetched| - 1]) && fetched[|fetched| - 1] !in web)
  {
    var w := Walk(web, resolve, artistUrl, fuel);
    if w.tracks.Success? then
      WalkSound(web, resolve, artistUrl, fuel);
      ChainComplete(web, resolve, artistUrl, fuel);
      w.tracks
    else
      ChainComplete(web, resolve, artistUrl, fuel);
      WalkFailure(web, resolve, artistUrl, fuel);
      w.tracks
  }

  /**
   * A walk fails in one of two ways only: a fetch raised, and then the
   * failing url is the last one fetched, is not served, and its `HttpError`
   * is the walk's error; or the step budget ran out after `fuel` fetches.
   */
  lemma {:induction false} WalkFailure(web: Web, resolve: string -> string, start: string, fuel: nat)
    ensures var w := Walk(web, resolve, start, fuel);
      w.tracks.Failure? ==>
        || (w.tracks.error == OutOfFuel && |w.fetched| == fuel)
        || (w.fetched != [] && w.tracks.error == HttpError(w.fetched[|w.fetched| - 1])
            && w.fetched[|w.fetched| - 1] !in web)
    decreases fuel
  {
    if start != [] && fuel > 0 && start in web {
      WalkFailure(web, resolve, NextUrl(web[start], resolve), fuel - 1);
    }
  }

  /** Every chain from `start` that fits in the budget is what the walk returns. */
  lemma ChainComplete(web: Web, resolve: string -> string, start: string, fuel: nat)
    ensures forall urls :: IsChain(web, resolve, start, urls) && |urls| <= fuel ==>
      Walk(web, resolve, start, fuel) == Walked(urls, Success(CatalogTracks(web, urls)))
  {
    forall urls | IsChain(web, resolve, start, urls) && |urls| <= fuel
      ensures Walk(web, resolve, start, fuel) == Walked(urls, Success(CatalogTracks(web, urls)))
    {
      WalkComplete(web, resolve, start, urls, fuel);
    }
  }

  /**
   * `urls` is the whole pagination chain from `start`: every page exists,
   * each links to the next, and the last one has no next link.
   */
  ghost predicate IsChain(web: Web, resolve: string -> string, start: string, urls: seq<string>) {
    if start == [] then urls == []
    else
      && |urls| > 0
      && urls[0] == start
      && (forall k :: 0 <= k < |urls| ==> urls[k] != [] && urls[k] in web)
      && (forall k, k' :: 0 <= k && k' == k + 1 && k' < |urls| ==> NextUrl(web[urls[k]], resolve) == urls[k'])
      && NextUrl(web[urls[|urls| - 1]], resolve) == []
  }

  /** The tracks of the pages `urls`, page after page. */
  ghost function CatalogTracks(web: Web, urls: seq<string>): seq<Track>
    requires forall k :: 0 <= k < |urls| ==> urls[k] in web
  {
    if urls == [] then [] else ExtractTracks(web[urls[0]].panels) + CatalogTracks(web, urls[1..])
  }

  /** A successful walk fetched a whole chain, and returned the tracks of its pages in order. */
  lemma {:induction false} WalkSound(web: Web, resolve: string -> string, start: string, fuel: nat)
    requires Walk(web, resolve, start, fuel).tracks.Success?
    ensures IsChain(web, resolve, start, Walk(web, resolve, start, fuel).fetched)
    ensures Walk(web, resolve, start, fuel).tracks.value ==
            CatalogTracks(web, Walk(web, resolve, start, fuel).fetched)
    decreases fuel
  {
    var w := Walk(web, resolve, start, fuel);
    if start != [] {
      var next := NextUrl(web[start], resolve);
      var rest := Walk(web, resolve, next, fuel - 1);
      WalkSound(web, resolve, next, fuel - 1);
      assert w.fetched == [start] + rest.fetched;
      ChainCons(web, resolve, start, rest.fetched);
    }
  }

  /** A served page in front of the chain its next link starts is a chain, and adds its tracks in front. */
  lemma ChainCons(web: Web, resolve: string -> string, start: string, rest: seq<string>)
    requires start != [] && start in web
    requires IsChain(web, resolve, NextUrl(web[start], resolve), rest)
    ensures IsChain(web, resolve, start, [start] + rest)
    ensures CatalogTracks(web, [start] + rest) == ExtractTracks(web[start].panels) + CatalogTracks(web, rest)
  {
    var urls := [start] + rest;
    assert urls[1..] == rest;
    assert forall k :: 0 < k < |urls| ==> urls[k] == rest[k - 1];
  }

  /** Given enough fuel, the walk fetches exactly the chain from `start` and returns its tracks. */
  lemma {:induction false} WalkComplete(web: Web, resolve: string -> string, start: string, urls: seq<string>, fuel: nat)
    requires IsChain(web, resolve, start, urls)
    requires |urls| <= fuel
    ensures Walk(web, resolve, start, fuel) == Walked(urls, Success(CatalogTracks(web, urls)))
    decreases fuel
  {
    if start != [] {
      var next := NextUrl(web[start], resolve);
      var tail := urls[1..];
      if |urls| > 1 {
        assert next == urls[1];
        ChainTail(web, resolve, start, urls);
      } else {
        assert next == [];
        assert tail == [];
      }
      WalkComplete(web, resolve, next, tail, fuel - 1);
      var rest := Walk(web, resolve, next, fuel - 1);
      assert rest == Walked(tail, Success(CatalogTracks(web, tail)));
      assert Walk(web, resolve, start, fuel).fetched == [start] + tail;
      assert urls == [start] + tail;
    }
  }

  lemma ChainTail(web: Web, resolve: string -> string, start: string, urls: seq<string>)
    requires start != [] && IsChain(web, resolve, start, urls) && |urls| > 1
    ensures IsChain(web, resolve, urls[1], urls[1..])
  {
  }

  /** Once a walk has succeeded, more fuel changes nothing. */
  lemma WalkMoreFuel(web: Web, resolve: string -> string, start: string, fuel: nat, more: nat)
    requires Walk(web, resolve, start, fuel).tracks.Success?
    ensures Walk(web, resolve, start, fuel + more) == Walk(web, resolve, start, fuel)
  {
    WalkSound(web, resolve, start, fuel);
    var urls := Walk(web, resolve, start, fuel).fetched;
    WalkComplete(web, resolve, start, urls, fuel);
    WalkComplete(web, resolve, start, urls, fuel + more);
  }

  /**
   * A walk that failed on a fetch stopped right there: the failing url is the
   * last one fetched, it is not served, and every earlier page was served and
   * linked to the next one.
   */
  lemma {:induction false} WalkStopsAtFailure(web: Web, resolve: string -> string, start: string, fuel: nat, failed: string)
    requires Walk(web, resolve, start, fuel).tracks == Failure(HttpError(failed))
    ensures var f := Walk(web, resolve, start, fuel).fetched;
      && f != []
      && f[|f| - 1] == failed
      && f[|f| - 1] !in web
      && (forall k :: 0 <= k < |f| - 1 ==> f[k] in web)
      && (forall k, k' :: 0 <= k && k' == k + 1 && k' < |f| ==> NextUrl(web[f[k]], resolve) == f[k'])
    decreases fuel
  {
    var w := Walk(web, resolve, start, fuel);
    if start in web {
      var next := NextUrl(web[start], resolve);
      WalkStopsAtFailure(web, resolve, next, fuel - 1, failed);
      assert w.fetched[1..] == Walk(web, resolve, next, fuel - 1).fetched;
    }
  }

  /** A page whose next link leads back to itself keeps the loop going forever. */
  lemma {:induction false} WalkSelfLinkDiverges(web: Web, resolve: string -> string, start: string, fuel: nat)
    requires start != [] && start in web
    requires NextUrl(web[start], resolve) == start
    ensures Walk(web, resolve, start, fuel).tracks == Failure(OutOfFuel)
    ensures |Walk(web, resolve, start, fuel).fetched| == fuel
    decreases fuel
  {
    if fuel > 0 {
      WalkSelfLinkDiverges(web, resolve, start, fuel - 1);
    }
  }
}

=== FILE: dispatch.dfy ===
/**
 * `search_tracks` and its worker: the query is stripped, an empty query is
 * refused before any work, "search" mode lists the search results unchecked,
 * and the artist mode either walks a catalog url directly or searches
 * artists by name and then walks the one found, or asks the user to choose.
 * The artist choice dialog and `show_tracks`' default check boxes are here
 * too.  Threads and `root.after` are left out: the worker is one function.
 */
module Dispatch {
  import opened Outcomes
  import opened Errors
  import opened Strings
  import opened Scrape
  import opened Catalog
  import opened Download
  import opened Batch

  /** What the handler decides from the query field and the mode, before any fetch. */
  datatype Action =
    | QueryRequired
    | SearchTracks(query: string, limit: int)
    | CollectCatalog(url: string)
    | SearchArtists(name: string)

  /** An artist-mode query walked as a catalog url as is: it starts with "http" or is all digits. */
  predicate IsCatalogReference(q: string) {
    StartsWith(q, "http") || IsDigits(q)
  }

  /** The handler's decision for the raw query text, the mode radio value and the limit spin box. */
  function Decide(raw: string, mode: string, limit: int): (a: Action)
    ensures a == QueryRequired <==> AllSpace(raw)
    ensures a.SearchTracks? <==> !AllSpace(raw) && mode == "search"
    ensures a.CollectCatalog? <==> !AllSpace(raw) && mode != "search" && IsCatalogReference(Strip(raw))
    ensures a.SearchArtists? <==> !AllSpace(raw) && mode != "search" && !IsCatalogReference(Strip(raw))
    ensures a.SearchTracks? ==> a.query == Strip(raw) && a.limit == limit
    ensures a.CollectCatalog? ==> a.url == Strip(raw)
    ensures a.SearchArtists? ==> a.name == Strip(raw)
    ensures !a.QueryRequired? ==> var q := Strip(raw); q != [] && Trimmed(q)
  {
    var query := Strip(raw);
    if query == [] then QueryRequired
    else if mode == "search" then SearchTracks(query, limit)
    else if IsCatalogReference(query) then CollectCatalog(query)
    else SearchArtists(query)
  }

  /** What the user ends up with after the worker. */
  datatype Outcome =
    | QueryMissing
    | Listed(tracks: seq<Track>, checked: bool)
    | ArtistNotFound
    | ChooseArtist(artists: seq<Artist>)
    | Failed(error: Error)

  /** Walking a catalog and listing its tracks ticked, or the error the walk raised. */
  function Collected(web: Web, resolve: string -> string, url: string, fuel: nat): (o: Outcome)
    ensures o.Listed? || o.Failed?
    ensures o.Listed? ==> o.checked && Walk(web, resolve, url, fuel).tracks == Success(o.tracks)
    ensures o.Failed? ==> Walk(web, resolve, url, fuel).tracks == Failure(o.error)
  {
    match CollectTracksFromArtist(web, resolve, url, fuel)
    case Success(tracks) => Listed(tracks, true)
    case Failure(e) => Failed(e)
  }

  /**
   * `search_tracks` followed by its worker.  Any exception the fetches raise
   * ends in `Failed`; the name search asks for a choice only when it finds
   * more than one artist.
   */
  function SearchWorker(web: Web, quote: string -> string, resolve: string -> string,
                        raw: string, mode: string, limit: int, fuel: nat): (o: Outcome)
    ensures o == QueryMissing <==> AllSpace(raw)
    ensures o.Listed? ==> (o.checked <==> mode != "search")
    ensures mode == "search" && !AllSpace(raw) ==>
      match FindTracksFromSearch(web, quote, Strip(raw), limit)
      case Success(tracks) => o == Listed(tracks, false)
      case Failure(e) => o == Failed(e)
    ensures o.ChooseArtist? ==>
      && mode != "search"
      && FindAllArtistsByName(web, quote, resolve, Strip(raw)) == Success(o.artists)
      && |o.artists| > 1
    ensures o == ArtistNotFound <==>
      !AllSpace(raw) && mode != "search" && !IsCatalogReference(Strip(raw))
      && FindAllArtistsByName(web, quote, resolve, Strip(raw)) == Success([])
    ensures Decide(raw, mode, limit).CollectCatalog? ==> o == Collected(web, resolve, Strip(raw), fuel)
    ensures Decide(raw, mode, limit).SearchArtists? ==>
      var found := FindAllArtistsByName(web, quote, resolve, Strip(raw));
      && (found.Failure? ==> o == Failed(found.error))
      && (found.Success? && |found.value| > 1 ==> o == ChooseArtist(found.value))
      && (found.Success? && |found.value| == 1 ==> o == Collected(web, resolve, found.value[0].url, fuel))
  {
    match Decide(raw, mode, limit)
    case QueryRequired => QueryMissing
    case SearchTracks(query, n) =>
      (match FindTracksFromSearch(web, quote, query, n)
       case Success(tracks) => Listed(tracks, false)
       case Failure(e) => Failed(e))
    case CollectCatalog(url) => Collected(web, resolve, url, fuel)
    case SearchArtists(name) =>
      match FindAllArtistsByName(web, quote, resolve, name)
      case Failure(e) => Failed(e)
      case Success(artists) =>
        if |artists| == 0 then ArtistNotFound
        else if |artists| > 1 then ChooseArtist(artists)
        else Collected(web, resolve, artists[0].url, fuel)
  }

  /**
   * The "Выбрать" button of the artist dialog: nothing happens until a row
   * is selected; then the chosen artist's catalog is walked.
   */
  function OnArtistChosen(web: Web, resolve: string -> string, artists: seq<Artist>,
                          selection: Option<nat>, fuel: nat): (o: Option<Outcome>)
    requires selection.Some? ==> selection.value < |artists|
    ensures o.None? <==> selection.None?
    ensures o.Some? ==> o.value.Listed? || o.value.Failed?
    ensures o.Some? ==> o.value == Collected(web, resolve, artists[selection.value].url, fuel)
  {
    match selection
    case None => None
    case Some(k) => Some(Collected(web, resolve, artists[k].url, fuel))
  }

  /** A name search that finds one artist ends where choosing that artist from a list would. */
  lemma SingleArtistAsIfChosen(web: Web, quote: string -> string, resolve: string -> string,
                               raw: string, mode: string, limit: int, fuel: nat, a: Artist)
    requires Decide(raw, mode, limit).SearchArtists?
    requires FindAllArtistsByName(web, quote, resolve, Strip(raw)) == Success([a])
    ensures Some(SearchWorker(web, quote, resolve, raw, mode, limit, fuel)) ==
      OnArtistChosen(web, resolve, [a], Some(0), fuel)
  {
  }

  /**
   * A catalog reference is walked without the search endpoint: the outcome
   * does not depend on `quote_plus` and is the walk from the query itself.
   */
  lemma CatalogReferenceSkipsSearch(web: Web, quote1: string -> string, quote2: string -> string,
                                    resolve: string -> string, raw: string, mode: string, limit: int, fuel: nat)
    requires !AllSpace(raw) && mode != "search" && IsCatalogReference(Strip(raw))
    ensures SearchWorker(web, quote1, resolve, raw, mode, limit, fuel) ==
      SearchWorker(web, quote2, resolve, raw, mode, limit, fuel)
    ensures SearchWorker(web, quote1, resolve, raw, mode, limit, fuel) == Collected(web, resolve, Strip(raw), fuel)
  {
  }

  /** The check boxes `show_tracks` creates: one per track, all set to `checked`. */
  function DefaultChecks(tracks: seq<Track>, checked: bool): (c: seq<bool>)
    ensures |c| == |tracks|
    ensures forall k :: 0 <= k < |c| ==> c[k] == checked
  {
    seq(|tracks|, k => checked)
  }

  /** Untouched check boxes select every listed track when ticked and none when not. */
  lemma {:induction false} DefaultSelection(tracks: seq<Track>, checked: bool)
    ensures Selected(tracks, DefaultChecks(tracks, checked)) == (if checked then tracks else [])
  {
    if tracks != [] {
      DefaultSelection(tracks[1..], checked);
      assert DefaultChecks(tracks, checked)[1..] == DefaultChecks(tracks[1..], checked);
    }
  }

  /**
   * Search results are listed unchecked, so downloading them untouched is
   * refused: for want of a folder first, else for want of a selection.
   * A catalog listed ticked downloads every track when a folder is set.
   */
  lemma DownloadUntouched(tracks: seq<Track>, checked: bool, folder: string,
                          join: (string, string) -> string, net: string -> Result<Response, Error>, disk: Disk)
    ensures var b := StartDownload(tracks, DefaultChecks(tracks, checked), folder, join, net, disk);
      && (folder == [] ==> b == Rejected(NoFolder))
      && (folder != [] && (!checked || tracks == []) ==> b == Rejected(NothingSelected))
      && (folder != [] && checked && tracks != [] ==>
            b.Ran? && |b.run.attempts| == |tracks| &&
            forall k :: 0 <= k < |tracks| ==> b.run.attempts[k] == AttemptFor(folder, join, tracks[k]))
  {
    DefaultSelection(tracks, checked);
  }
}

=== FILE: download.dfy ===
/**
 * `download_file`: stream one response into a file chunk by chunk and report
 * the fraction downloaded after each non-empty chunk.  The file is the byte
 * sequence written; fractions are exact reals instead of floats.
 */
module Download {
  import opened Outcomes
  import opened Errors

  type Bytes = seq<bv8>

  /** The `content-length` header: missing (read as 0), an integer, or text `int()` rejects. */
  datatype ContentLength = Absent | Declared(n: int) | Malformed

  /**
   * A streamed response that passed `raise_for_status`: its length header, the
   * chunks `iter_content(8192)` yields, and the error raised after the last of
   * them if the stream broke.
   */
  datatype Response = Response(length: ContentLength, chunks: seq<Bytes>, broken: Option<Error>)

  /**
   * What one call leaves behind: the file contents if the file was opened,
   * the values passed to the progress callback, and the error it raised.
   */
  datatype Download = Download(file: Option<Bytes>, progress: seq<real>, error: Option<Error>)

  /** `int(r.headers.get('content-length', 0))` for a header `int()` accepts. */
  function DeclaredTotal(length: ContentLength): int
    requires !length.Malformed?
  {
    match length
    case Absent => 0
    case Declared(n) => n
  }

  /** All chunks, concatenated in order. */
  function Flatten(chunks: seq<Bytes>): Bytes {
    if chunks == [] then [] else chunks[0] + Flatten(chunks[1..])
  }

  /** The chunks that pass the `if chunk:` test, in order. */
  function NonEmpty(chunks: seq<Bytes>): (r: seq<Bytes>)
    ensures |r| <= |chunks|
    ensures forall k :: 0 <= k < |r| ==> r[k] != []
  {
    if chunks == [] then []
    else (if chunks[0] != [] then [chunks[0]] else []) + NonEmpty(chunks[1..])
  }

  /** Filtering works chunk by chunk, so it distributes over concatenation. */
  lemma {:induction false} NonEmptyAppend(a: seq<Bytes>, b: seq<Bytes>)
    ensures NonEmpty(a + b) == NonEmpty(a) + NonEmpty(b)
  {
    if a == [] {
      assert a + b == b;
    } else {
      assert (a + b)[0] == a[0];
      assert (a + b)[1..] == a[1..] + b;
      NonEmptyAppend(a[1..], b);
    }
  }

  /** One chunk is kept, on its own, exactly when it is non-empty. */
  lemma NonEmptySingle(c: Bytes)
    ensures NonEmpty([c]) == if c == [] then [] else [c]
  {
    assert [c][1..] == [];
  }

  /** Bytes downloaded once the first `k` non-empty chunks are written. */
  function DownloadedAfter(chunks: seq<Bytes>, k: nat): nat
    requires k <= |NonEmpty(chunks)|
  {
    |Flatten(NonEmpty(chunks)[..k])|
  }

  /**
   * The body of the `for chunk in r.iter_content(8192)` loop, from the point
   * where `downloaded` bytes have been written: the bytes written and the
   * values passed to the callback.
   */
  function Stream(chunks: seq<Bytes>, downloaded: nat, total: int, report: bool): (Bytes, seq<real>)
  {
    if chunks == [] then ([], [])
    else if chunks[0] == [] then Stream(chunks[1..], downloaded, total, report)
    else
      var now := downloaded + |chunks[0]|;
      var rest := Stream(chunks[1..], now, total, report);
      (chunks[0] + rest.0, (if report && total > 0 then [now as real / total as real] else []) + rest.1)
  }

  /**
   * `download_file(url, path, progress_callback)`, given the outcome of the
   * GET.  `report` says whether a callback was passed.
   */
  function DownloadFile(reply: Result<Response, Error>, report: bool): (d: Download)
    ensures reply.Failure? ==> d == Download(None, [], Some(reply.error))
    ensures reply.Success? && reply.value.length.Malformed? ==> d == Download(None, [], Some(BadContentLength))
    ensures reply.Success? && !reply.value.length.Malformed? ==>
      var total := DeclaredTotal(reply.value.length);
      var chunks := reply.value.chunks;
      && d.file == Some(Flatten(chunks))
      && d.error == reply.value.broken
      && |d.progress| == (if report && total > 0 then |NonEmpty(chunks)| else 0)
      && (forall k :: 0 <= k < |d.progress| ==>
            d.progress[k] == DownloadedAfter(chunks, k + 1) as real / total as real)
  {
    match reply
    case Failure(e) => Download(None, [], Some(e))
    case Success(response) =>
      if response.length.Malformed? then Download(None, [], Some(BadContentLength))
      else
        var total := DeclaredTotal(response.length);
        var written := Stream(response.chunks, 0, total, report);
        StreamWritesAll(response.chunks, 0, total, report);
        StreamReports(response.chunks, 0, total, report);
        Download(Some(written.0), written.1, response.broken)
  }

  lemma {:induction false} FlattenAppend(a: seq<Bytes>, b: seq<Bytes>)
    ensures Flatten(a + b) == Flatten(a) + Flatten(b)
  {
    if a == [] {
      assert a + b == b;
    } else {
      assert (a + b)[1..] == a[1..] + b;
      FlattenAppend(a[1..], b);
    }
  }

  /** Skipping the empty chunks loses no bytes. */
  lemma {:induction false} FlattenNonEmpty(chunks: seq<Bytes>)
    ensures Flatten(NonEmpty(chunks)) == Flatten(chunks)
  {
    if chunks != [] {
      FlattenNonEmpty(chunks[1..]);
      var head := if chunks[0] != [] then [chunks[0]] else [];
      FlattenAppend(head, NonEmpty(chunks[1..]));
    }
  }

  /** The loop writes every chunk, in order. */
  lemma {:induction false} StreamWritesAll(chunks: seq<Bytes>, downloaded: nat, total: int, report: bool)
    ensures Stream(chunks, downloaded, total, report).0 == Flatten(chunks)
  {
    if chunks != [] {
      StreamWritesAll(chunks[1..], if chunks[0] == [] then downloaded else downloaded + |chunks[0]|, total, report);
    }
  }

  /** The first `k + 1` non-empty chunks of `chunks` are its first one and the first `k` of the rest. */
  lemma DownloadedAfterStep(chunks: seq<Bytes>, k: nat)
    requires chunks != [] && chunks[0] != []
    requires k <= |NonEmpty(chunks[1..])|
    ensures k + 1 <= |NonEmpty(chunks)|
    ensures DownloadedAfter(chunks, k + 1) == |chunks[0]| + DownloadedAfter(chunks[1..], k)
  {
    var ne := NonEmpty(chunks);
    assert ne == [chunks[0]] + NonEmpty(chunks[1..]);
    assert ne[..k + 1] == [chunks[0]] + NonEmpty(chunks[1..])[..k];
    FlattenAppend([chunks[0]], NonEmpty(chunks[1..])[..k]);
    assert Flatten([chunks[0]]) == chunks[0];
  }

  /** The loop reports, after each non-empty chunk, the running total over the declared size. */
  lemma {:induction false} StreamReports(chunks: seq<Bytes>, downloaded: nat, total: int, report: bool)
    ensures var p := Stream(chunks, downloaded, total, report).1;
      && |p| == (if report && total > 0 then |NonEmpty(chunks)| else 0)
      && forall k :: 0 <= k < |p| ==>
           p[k] == (downloaded + DownloadedAfter(chunks, k + 1)) as real / total as real
  {
    if chunks != [] {
      var rest := chunks[1..];
      if chunks[0] == [] {
        StreamReports(rest, downloaded, total, report);
        assert NonEmpty(chunks) == NonEmpty(rest);
      } else {
        var now := downloaded + |chunks[0]|;
        StreamReports(rest, now, total, report);
        var p := Stream(chunks, downloaded, total, report).1;
        var q := Stream(rest, now, total, report).1;
        assert NonEmpty(chunks) == [chunks[0]] + NonEmpty(rest);
        if report && total > 0 {
          assert p == [now as real / total as real] + q;
          forall k | 0 <= k < |p|
            ensures p[k] == (downloaded + DownloadedAfter(chunks, k + 1)) as real / total as real
          {
            DownloadedAfterStep(chunks, k);
            var bytes := downloaded + DownloadedAfter(chunks, k + 1);
            if k == 0 {
              assert DownloadedAfter(rest, 0) == 0;
              assert bytes == now;
            } else {
              assert p[k] == q[k - 1];
              assert bytes == now + DownloadedAfter(rest, k - 1 + 1);
            }
          }
        }
      }
    }
  }

  /** Each further non-empty chunk adds bytes. */
  lemma DownloadedAfterGrows(chunks: seq<Bytes>, k: nat)
    requires k < |NonEmpty(chunks)|
    ensures DownloadedAfter(chunks, k) < DownloadedAfter(chunks, k + 1)
  {
    var ne := NonEmpty(chunks);
    assert ne[..k + 1] == ne[..k] + [ne[k]];
    FlattenAppend(ne[..k], [ne[k]]);
    assert Flatten([ne[k]]) == ne[k];
  }

  lemma {:induction false} DownloadedAfterIncreasing(chunks: seq<Bytes>, i: nat, j: nat)
    requires i < j <= |NonEmpty(chunks)|
    ensures DownloadedAfter(chunks, i) < DownloadedAfter(chunks, j)
    decreases j - i
  {
    DownloadedAfterGrows(chunks, j - 1);
    if i < j - 1 {
      DownloadedAfterIncreasing(chunks, i, j - 1);
    }
  }

  lemma DivideMonotone(a: real, b: real, t: real)
    requires a < b && t > 0.0
    ensures a / t < b / t
  {
  }

  /** The reported fractions strictly increase. */
  lemma DownloadProgressIncreasing(reply: Result<Response, Error>, report: bool)
    ensures var p := DownloadFile(reply, report).progress;
      forall i, j :: 0 <= i < j < |p| ==> p[i] < p[j]
  {
    var p := DownloadFile(reply, report).progress;
    if p != [] {
      var chunks := reply.value.chunks;
      var total := DeclaredTotal(reply.value.length);
      forall i, j | 0 <= i < j < |p|
        ensures p[i] < p[j]
      {
        DownloadedAfterIncreasing(chunks, i + 1, j + 1);
        DivideMonotone(DownloadedAfter(chunks, i + 1) as real, DownloadedAfter(chunks, j + 1) as real, total as real);
      }
    }
  }

  /** The last fraction reported is the size of the file over the declared total. */
  lemma DownloadProgressEndsAtFileSize(reply: Result<Response, Error>, report: bool)
    requires reply.Success? && !reply.value.length.Malformed?
    requires DownloadFile(reply, report).progress != []
    ensures var p := DownloadFile(reply, report).progress;
      p[|p| - 1] == |Flatten(reply.value.chunks)| as real / DeclaredTotal(reply.value.length) as real
  {
    var chunks := reply.value.chunks;
    FlattenNonEmpty(chunks);
    assert NonEmpty(chunks)[..|NonEmpty(chunks)|] == NonEmpty(chunks);
  }

  /**
   * When the server declares at least the number of bytes it sends, every
   * fraction lies in (0, 1], and the last is exactly 1 when the declaration
   * was exact.
   */
  lemma DownloadProgressAtMostOne(reply: Result<Response, Error>, report: bool)
    requires reply.Success? && !reply.value.length.Malformed?
    requires |Flatten(reply.value.chunks)| <= DeclaredTotal(reply.value.length)
    ensures var p := DownloadFile(reply, report).progress;
      && (forall k :: 0 <= k < |p| ==> 0.0 < p[k] <= 1.0)
      && (p != [] ==> (p[|p| - 1] == 1.0 <==> |Flatten(reply.value.chunks)| == DeclaredTotal(reply.value.length)))
  {
    var p := DownloadFile(reply, report).progress;
    var chunks := reply.value.chunks;
    var total := DeclaredTotal(reply.value.length);
    if p != [] {
      DownloadProgressEndsAtFileSize(reply, report);
      FlattenNonEmpty(chunks);
      forall k | 0 <= k < |p|
        ensures 0.0 < p[k] <= 1.0
      {
        DownloadedAfterIncreasing(chunks, 0, k + 1);
        if k + 1 < |NonEmpty(chunks)| {
          DownloadedAfterIncreasing(chunks, k + 1, |NonEmpty(chunks)|);
        }
        assert NonEmpty(chunks)[..|NonEmpty(chunks)|] == NonEmpty(chunks);
        DivideAtMostOne(DownloadedAfter(chunks, k + 1) as real, total as real);
      }
      var last := |Flatten(chunks)| as real;
      assert last / total as real == 1.0 <==> last == total as real by {
        DivideIsOne(last, total as real);
      }
    }
  }

  lemma DivideAtMostOne(a: real, t: real)
    requires 0.0 < a <= t
    ensures 0.0 < a / t <= 1.0
  {
  }

  lemma DivideIsOne(a: real, t: real)
    requires t > 0.0
    ensures a / t == 1.0 <==> a == t
  {
  }

  /** The fractions are not clamped: a server that under-declares its length drives them past 1. */
  lemma UnderDeclaredExceedsOne()
    ensures DownloadFile(Success(Response(Declared(1), [[0, 0]], None)), true).progress == [2.0]
  {
  }
}

=== FILE: errors.dfy ===
/** The errors the scraper and the downloader can raise, shared by both. */
module Errors {

  /** What can go wrong in the core. */
  datatype Error =
    | HttpError(url: string)   // `requests` raised while fetching `url`
    | BadContentLength         // `int()` of the content-length header raised
    | OutOfFuel                // the pagination walk needed more steps than allowed
}

=== FILE: outcomes.dfy ===
/**
 * The two shapes of value the scraper passes around: something that may be
 * missing, and something that may have raised.  `Result` supports Dafny's
 * `:-` so a raising call ends the caller with the same error, as a Python
 * exception would propagate.
 */
module Outcomes {

  /** An HTML attribute that may be missing, a next-page link that may be absent, an error that may not have occurred. */
  datatype Option<+T> = None | Some(value: T)

  /** A fetch or a download: the value it produced, or the error it raised. */
  datatype Result<+R, +E> = Success(value: R) | Failure(error: E) {

    /** Whether the call raised. */
    predicate IsFailure() {
      Failure?
    }

    /** The same error, carried to a caller whose value has another type. */
    function PropagateFailure<U>(): Result<U, E>
      requires Failure?
    {
      Failure(error)
    }

    /** The value of a call that did not raise. */
    function Extract(): R
      requires Success?
    {
      value
    }
  }
}

=== FILE: sanitize.dfy ===
/**
 * `safe_filename`: strip the name, replace the characters Windows forbids in
 * file names by `_`, and collapse every whitespace run to a single blank.
 */
module Sanitize {
  import opened Strings

  /** The characters `safe_filename` replaces by an underscore. */
  const Reserved: set<char> := {'\\', '/', '*', '?', ':', '"', '<', '>', '|'}

  function Underscore(c: char): char {
    if c in Reserved then '_' else c
  }

  /** The step that replaces each reserved character by an underscore. */
  function ReplaceReserved(s: string): (r: string)
    ensures |r| == |s|
    ensures forall i :: 0 <= i < |s| ==> r[i] == Underscore(s[i])
  {
    if s == [] then [] else [Underscore(s[0])] + ReplaceReserved(s[1..])
  }

  /** The step that turns each maximal whitespace run into one blank. */
  function CollapseSpaces(s: string): (r: string)
    ensures |r| <= |s|
    decreases |s|
  {
    if s == [] then []
    else if IsSpace(s[0]) then [' '] + CollapseSpaces(TrimStart(s[1..]))
    else [s[0]] + CollapseSpaces(s[1..])
  }

  /** Collapsing keeps the non-whitespace characters and their order. */
  lemma {:induction false} CollapseKeepsNonSpace(s: string)
    ensures NonSpace(CollapseSpaces(s)) == NonSpace(s)
    decreases |s|
  {
    if s != [] {
      var r := CollapseSpaces(s);
      if IsSpace(s[0]) {
        var t := TrimStart(s[1..]);
        CollapseKeepsNonSpace(t);
        assert r[1..] == CollapseSpaces(t);
      } else {
        CollapseKeepsNonSpace(s[1..]);
        assert r[1..] == CollapseSpaces(s[1..]);
      }
    }
  }

  /** Collapsing introduces no character other than the blank. */
  lemma {:induction false} CollapseAddsOnlyBlanks(s: string)
    ensures forall c :: c in CollapseSpaces(s) ==> c == ' ' || c in s
    decreases |s|
  {
    if s != [] {
      var r := CollapseSpaces(s);
      if IsSpace(s[0]) {
        var t := TrimStart(s[1..]);
        CollapseAddsOnlyBlanks(t);
        assert r == [' '] + CollapseSpaces(t);
        assert forall c :: c in t ==> c in s by {
          TrimStartSuffix(s[1..]);
          assert t == s[|s| - |t|..];
        }
      } else {
        CollapseAddsOnlyBlanks(s[1..]);
        assert r == [s[0]] + CollapseSpaces(s[1..]);
        assert forall c :: c in s[1..] ==> c in s;
      }
    }
  }

  /** Collapsing keeps whether the text begins with whitespace. */
  lemma {:induction false} CollapseKeepsStart(s: string)
    ensures CollapseSpaces(s) == [] <==> s == []
    ensures StartsWithSpace(CollapseSpaces(s)) <==> StartsWithSpace(s)
  {
  }

  /** Collapsing keeps whether the text ends with whitespace. */
  lemma {:induction false} CollapseKeepsEnd(s: string)
    ensures EndsWithSpace(CollapseSpaces(s)) <==> EndsWithSpace(s)
    decreases |s|
  {
    if s != [] {
      var r := CollapseSpaces(s);
      var t := if IsSpace(s[0]) then TrimStart(s[1..]) else s[1..];
      var c := CollapseSpaces(t);
      CollapseKeepsEnd(t);
      CollapseKeepsStart(t);
      assert r == [if IsSpace(s[0]) then ' ' else s[0]] + c;
      if t == [] {
        if IsSpace(s[0]) {
          SpaceRunEnds(s);
        } else {
          assert r == [s[0]] && s == [s[0]];
        }
      } else {
        assert r[|r| - 1] == c[|c| - 1];
        assert t[|t| - 1] == s[|s| - 1] by {
          if IsSpace(s[0]) {
            TrimStartSuffix(s[1..]);
            assert t == s[|s| - |t|..];
          }
        }
      }
    }
  }

  lemma SpaceRunEnds(s: string)
    requires s != [] && IsSpace(s[0]) && TrimStart(s[1..]) == []
    ensures EndsWithSpace(s)
  {
    if |s| > 1 {
      TrimStartSuffix(s[1..]);
      assert AllSpace(s[1..][..|s| - 1]);
      assert s[1..][..|s| - 1] == s[1..];
      assert s[|s| - 1] == s[1..][|s| - 2];
    }
  }

  /** Collapsing leaves only single blanks as whitespace. */
  lemma {:induction false} CollapseGivesSingleBlanks(s: string)
    ensures SingleBlanks(CollapseSpaces(s))
    decreases |s|
  {
    if s != [] {
      var r := CollapseSpaces(s);
      if IsSpace(s[0]) {
        var t := TrimStart(s[1..]);
        CollapseGivesSingleBlanks(t);
        CollapseKeepsStart(t);
        assert r == [' '] + CollapseSpaces(t);
      } else {
        CollapseGivesSingleBlanks(s[1..]);
        assert r == [s[0]] + CollapseSpaces(s[1..]);
      }
    }
  }

  predicate StartsWithSpace(s: string) {
    s != [] && IsSpace(s[0])
  }

  predicate EndsWithSpace(s: string) {
    s != [] && IsSpace(s[|s| - 1])
  }

  /** No character of `s` is one of the reserved ones. */
  predicate NoReserved(s: string) {
    forall i :: 0 <= i < |s| ==> s[i] !in Reserved
  }

  /** Every whitespace character of `s` is a blank, and no two are adjacent. */
  predicate SingleBlanks(s: string) {
    && (forall i :: 0 <= i < |s| && IsSpace(s[i]) ==> s[i] == ' ')
    && (forall i, j :: 0 <= i < |s| && 0 <= j < |s| && j == i + 1 ==> !(IsSpace(s[i]) && IsSpace(s[j])))
  }

  /** What `safe_filename` can return. */
  predicate IsSafe(s: string) {
    NoReserved(s) && SingleBlanks(s) && Trimmed(s)
  }

  lemma {:induction false} ReplaceReservedNonSpace(s: string)
    ensures NonSpace(ReplaceReserved(s)) == ReplaceReserved(NonSpace(s))
  {
    if s != [] {
      var r := ReplaceReserved(s);
      assert r[1..] == ReplaceReserved(s[1..]);
      ReplaceReservedNonSpace(s[1..]);
      if !IsSpace(s[0]) {
        assert NonSpace(s) == [s[0]] + NonSpace(s[1..]);
        assert ReplaceReserved([s[0]] + NonSpace(s[1..]))[1..] == ReplaceReserved(NonSpace(s[1..]));
      }
    }
  }

  /** Python's `safe_filename(name)`: the three steps in the source's order. */
  function SafeFilename(name: string): (r: string)
    ensures |r| <= |name|
  {
    CollapseSpaces(ReplaceReserved(Strip(name)))
  }

  /**
   * The result is a safe name whose non-whitespace characters are those of
   * the input, in order, with the reserved ones turned into underscores.
   */
  lemma SafeFilenameIsSafe(name: string)
    ensures IsSafe(SafeFilename(name))
    ensures NonSpace(SafeFilename(name)) == ReplaceReserved(NonSpace(name))
  {
    var stripped := Strip(name);
    var replaced := ReplaceReserved(stripped);
    ReplaceReservedNonSpace(stripped);
    ReplaceReservedIsClean(stripped);
    CollapseKeepsNonSpace(replaced);
    CollapseCleanIsSafe(replaced);
  }

  lemma ReplaceReservedIsClean(s: string)
    requires Trimmed(s)
    ensures NoReserved(ReplaceReserved(s))
    ensures Trimmed(ReplaceReserved(s))
  {
  }

  lemma CollapseCleanIsSafe(s: string)
    requires NoReserved(s) && Trimmed(s)
    ensures IsSafe(CollapseSpaces(s))
  {
    var r := CollapseSpaces(s);
    CollapseAddsOnlyBlanks(s);
    assert NoReserved(r) by {
      forall i | 0 <= i < |r|
        ensures r[i] !in Reserved
      {
        assert r[i] in r;
      }
    }
    assert Trimmed(r) by {
      CollapseKeepsStart(s);
      CollapseKeepsEnd(s);
    }
    CollapseGivesSingleBlanks(s);
  }

  /** Collapsing changes nothing once whitespace is already single blanks. */
  lemma {:induction false} CollapseFixesSingleBlanks(s: string)
    requires SingleBlanks(s)
    ensures CollapseSpaces(s) == s
  {
    if s != [] {
      assert SingleBlanks(s[1..]);
      if IsSpace(s[0]) {
        assert TrimStart(s[1..]) == s[1..];
      }
      CollapseFixesSingleBlanks(s[1..]);
    }
  }

  /** The names `safe_filename` leaves unchanged are exactly the safe ones. */
  lemma SafeFilenameFixedPoints(s: string)
    ensures SafeFilename(s) == s <==> IsSafe(s)
  {
    if IsSafe(s) {
      assert Strip(s) == s by {
        assert TrimStart(s) == s;
        assert TrimEnd(s) == s;
      }
      assert ReplaceReserved(s) == s by {
        ReplaceReservedKeepsClean(s);
      }
      CollapseFixesSingleBlanks(s);
    } else {
      SafeFilenameIsSafe(s);
    }
  }

  /** A name without reserved characters is left alone by the substitution. */
  lemma ReplaceReservedKeepsClean(s: string)
    requires NoReserved(s)
    ensures ReplaceReserved(s) == s
  {
    var r := ReplaceReserved(s);
    assert forall i :: 0 <= i < |s| ==> r[i] == s[i];
  }

  lemma CollapseCons(c: char, s: string)
    requires !IsSpace(c)
    ensures CollapseSpaces([c] + s) == [c] + CollapseSpaces(s)
  {
    assert ([c] + s)[1..] == s;
  }

  /** A whitespace-free prefix passes through the collapsing untouched. */
  lemma {:induction false} CollapseWord(w: string, r: string)
    requires forall i :: 0 <= i < |w| ==> !IsSpace(w[i])
    ensures CollapseSpaces(w + r) == w + CollapseSpaces(r)
  {
    if w == [] {
      assert w + r == r;
    } else {
      var tail := w[1..];
      assert w + r == [w[0]] + (tail + r);
      CollapseCons(w[0], tail + r);
      CollapseWord(tail, r);
      assert [w[0]] + (tail + CollapseSpaces(r)) == w + CollapseSpaces(r);
    }
  }

  lemma ReplaceAppend(a: string, b: string)
    ensures ReplaceReserved(a + b) == ReplaceReserved(a) + ReplaceReserved(b)
  {
    var l := ReplaceReserved(a + b);
    var r := ReplaceReserved(a) + ReplaceReserved(b);
    forall i | 0 <= i < |l|
      ensures l[i] == r[i]
    {
      if i < |a| {
        assert (a + b)[i] == a[i];
      } else {
        assert (a + b)[i] == b[i - |a|];
      }
    }
  }

  /** Collapsing whitespace before a whitespace-free word ends in that word. */
  lemma {:induction false} CollapseBeforeWord(x: string, w: string)
    requires w != [] && forall i :: 0 <= i < |w| ==> !IsSpace(w[i])
    ensures CollapseSpaces(x + w) == CollapseSpaces(x) + w
    decreases |x|
  {
    if x == [] {
      assert x + w == w;
      CollapseWord(w, []);
      assert w + [] == w;
    } else if IsSpace(x[0]) {
      var t := TrimStart(x[1..]);
      assert (x + w)[0] == x[0];
      assert (x + w)[1..] == x[1..] + w;
      TrimStartBeforeWord(x[1..], w);
      CollapseBeforeWord(t, w);
      assert CollapseSpaces(x + w) == [' '] + (CollapseSpaces(t) + w);
    } else {
      assert x + w == [x[0]] + (x[1..] + w);
      CollapseCons(x[0], x[1..] + w);
      CollapseBeforeWord(x[1..], w);
      CollapseCons(x[0], x[1..]);
      assert x == [x[0]] + x[1..];
    }
  }

  /**
   * A name ending in a word without whitespace or reserved characters (an
   * extension such as ".mp3") keeps that word at the end of its safe form.
   */
  lemma SafeFilenameKeepsSuffix(u: string, w: string)
    requires w != [] && NoReserved(w)
    requires forall i :: 0 <= i < |w| ==> !IsSpace(w[i])
    ensures SafeFilename(u + w) == CollapseSpaces(ReplaceReserved(TrimStart(u))) + w
    ensures EndsWith(SafeFilename(u + w), w)
  {
    var t := TrimStart(u);
    TrimStartBeforeWord(u, w);
    assert TrimEnd(t + w) == t + w by {
      assert (t + w)[|t + w| - 1] == w[|w| - 1];
    }
    assert Strip(u + w) == t + w;
    ReplaceAppend(t, w);
    ReplaceReservedKeepsClean(w);
    CollapseBeforeWord(ReplaceReserved(t), w);
  }

  /** `safe_filename` is idempotent. */
  lemma SafeFilenameIdempotent(s: string)
    ensures SafeFilename(SafeFilename(s)) == SafeFilename(s)
  {
    SafeFilenameIsSafe(s);
    SafeFilenameFixedPoints(SafeFilename(s));
  }
}

=== FILE: scrape.dfy ===
/**
 * What the scraper reads out of one fetched page, once the CSS selection has
 * picked the nodes: track panels (`.track__user-panel`) and artist links
 * (`a[href*='/artist/']`).  The HTML itself is not modelled; each selected
 * node is given by the attributes the source reads from it.
 */
module Scrape {
  import opened Outcomes

  /** A `.track__user-panel` node: its three `data-js-*` attributes, each possibly missing. */
  datatype Panel = Panel(url: Option<string>, title: Option<string>, artist: Option<string>)

  /** A track record as the worker builds it: `{"url", "title", "artist"}`. */
  datatype Track = Track(url: string, title: string, artist: string)

  const UnknownTitle: string := "Unknown Title"
  const UnknownArtist: string := "Unknown Artist"
  const UnknownName: string := "Unknown"

  /** Python truthiness of an attribute value: present and non-empty. */
  predicate Truthy(a: Option<string>) {
    a.Some? && a.value != []
  }

  /** Python's `a or fallback` for an attribute value. */
  function OrElse(a: Option<string>, fallback: string): string {
    if Truthy(a) then a.value else fallback
  }

  /** The `if mp3:` test: the panel carries a non-empty audio url. */
  predicate HasAudio(p: Panel) {
    Truthy(p.url)
  }

  /** The record appended for a panel that passed the `if mp3:` test. */
  function ToTrack(p: Panel): (t: Track)
    requires HasAudio(p)
    ensures t.url == p.url.value
    ensures t.title == (if Truthy(p.title) then p.title.value else UnknownTitle) && t.title != []
    ensures t.artist == (if Truthy(p.artist) then p.artist.value else UnknownArtist) && t.artist != []
  {
    Track(p.url.value, OrElse(p.title, UnknownTitle), OrElse(p.artist, UnknownArtist))
  }

  /**
   * The panel loop shared by the search and the catalog pages: one record per
   * panel with an audio url, in document order; other panels are skipped.
   */
  function ExtractTracks(panels: seq<Panel>): (r: seq<Track>)
    ensures |r| <= |panels|
    ensures forall t :: t in r ==> t.url != [] && t.title != [] && t.artist != []
  {
    if panels == [] then []
    else
      (if HasAudio(panels[0]) then [ToTrack(panels[0])] else []) + ExtractTracks(panels[1..])
  }

  /** Extraction works panel by panel, so it distributes over concatenation. */
  lemma {:induction false} ExtractAppend(a: seq<Panel>, b: seq<Panel>)
    ensures ExtractTracks(a + b) == ExtractTracks(a) + ExtractTracks(b)
  {
    if a == [] {
      assert a + b == b;
    } else {
      var head := if HasAudio(a[0]) then [ToTrack(a[0])] else [];
      assert (a + b)[0] == a[0];
      assert (a + b)[1..] == a[1..] + b;
      ExtractAppend(a[1..], b);
      calc {
        ExtractTracks(a + b);
        head + ExtractTracks(a[1..] + b);
        head + (ExtractTracks(a[1..]) + ExtractTracks(b));
        (head + ExtractTracks(a[1..])) + ExtractTracks(b);
      }
    }
  }

  /**
   * A record is produced exactly for the panels with an audio url; its title
   * and artist are the attributes when non-empty and the placeholders otherwise.
   */
  lemma {:induction false} ExtractMembership(panels: seq<Panel>, t: Track)
    ensures t in ExtractTracks(panels) <==>
      exists i :: 0 <= i < |panels| && HasAudio(panels[i]) && t == ToTrack(panels[i])
  {
    if panels != [] {
      ExtractMembership(panels[1..], t);
      if exists i :: 0 <= i < |panels| && HasAudio(panels[i]) && t == ToTrack(panels[i]) {
        var i :| 0 <= i < |panels| && HasAudio(panels[i]) && t == ToTrack(panels[i]);
        if i > 0 {
          assert panels[1..][i - 1] == panels[i];
        }
      }
      if exists j :: 0 <= j < |panels[1..]| && HasAudio(panels[1..][j]) && t == ToTrack(panels[1..][j]) {
        var j :| 0 <= j < |panels[1..]| && HasAudio(panels[1..][j]) && t == ToTrack(panels[1..][j]);
        assert panels[j + 1] == panels[1..][j];
      }
    }
  }

  /** When every panel has an audio url, there is one record per panel, in the same order. */
  lemma {:induction false} ExtractAllAudio(panels: seq<Panel>)
    requires forall i :: 0 <= i < |panels| ==> HasAudio(panels[i])
    ensures |ExtractTracks(panels)| == |panels|
    ensures forall i :: 0 <= i < |panels| ==> ExtractTracks(panels)[i] == ToTrack(panels[i])
  {
    if panels != [] {
      ExtractAllAudio(panels[1..]);
    }
  }

  /** A panel without an audio url neither contributes nor shifts the records of the others. */
  lemma ExtractSkipsSilentPanel(before: seq<Panel>, p: Panel, after: seq<Panel>)
    requires !HasAudio(p)
    ensures ExtractTracks(before + [p] + after) == ExtractTracks(before + after)
  {
    ExtractAppend(before + [p], after);
    ExtractAppend(before, [p]);
    ExtractAppend(before, after);
  }

  /** Python's `xs[:n]`, including its handling of a negative `n`. */
  function SlicePrefix<T>(xs: seq<T>, n: int): (r: seq<T>)
    ensures |r| <= |xs|
    ensures r == xs[..|r|]
    ensures 0 <= n ==> |r| == if n < |xs| then n else |xs|
    ensures n < 0 ==> |r| == if |xs| + n < 0 then 0 else |xs| + n
  {
    if n >= 0 then (if n < |xs| then xs[..n] else xs)
    else (if |xs| + n < 0 then [] else xs[..|xs| + n])
  }

  /**
   * The panel loop of `find_tracks_from_search`: the `[:limit]` slice is taken
   * of the panels, before the audio filter.
   */
  function SearchPanels(panels: seq<Panel>, limit: int): (r: seq<Track>)
    ensures 0 <= limit ==> |r| <= limit && |r| <= |panels|
    ensures |r| <= |ExtractTracks(panels)|
    ensures r == ExtractTracks(panels)[..|r|]
    ensures forall t :: t in r ==> t.url != []
  {
    var kept := SlicePrefix(panels, limit);
    assert panels == kept + panels[|kept|..];
    ExtractAppend(kept, panels[|kept|..]);
    ExtractTracks(kept)
  }

  /**
   * A search returns a record exactly for the panels with audio among the
   * first `limit` (in the sense of `[:limit]`); panels past the slice never
   * contribute, whatever their audio.
   */
  lemma SearchMembership(panels: seq<Panel>, limit: int, t: Track)
    ensures t in SearchPanels(panels, limit) <==>
      exists i :: 0 <= i < |SlicePrefix(panels, limit)| && HasAudio(panels[i]) && t == ToTrack(panels[i])
  {
    var kept := SlicePrefix(panels, limit);
    assert SearchPanels(panels, limit) == ExtractTracks(kept);
    ExtractMembership(kept, t);
    assert forall i :: 0 <= i < |kept| ==> kept[i] == panels[i];
  }

  /**
   * The search's records, followed by the records of the panels past the
   * `[:limit]` slice, are all the page's records: every audio panel inside
   * the slice gives its own record, repeated panels included.
   */
  lemma SearchSplitsPage(panels: seq<Panel>, limit: int)
    ensures var cut := |SlicePrefix(panels, limit)|;
      SearchPanels(panels, limit) + ExtractTracks(panels[cut..]) == ExtractTracks(panels)
  {
    var kept := SlicePrefix(panels, limit);
    assert panels == kept + panels[|kept|..];
    ExtractAppend(kept, panels[|kept|..]);
  }

  /** With enough panels, all with audio, a search returns exactly the first `limit` of them. */
  lemma SearchTakesFirst(panels: seq<Panel>, limit: nat)
    requires limit <= |panels|
    requires forall i :: 0 <= i < |panels| ==> HasAudio(panels[i])
    ensures |SearchPanels(panels, limit)| == limit
    ensures forall i :: 0 <= i < limit ==> SearchPanels(panels, limit)[i] == ToTrack(panels[i])
  {
    ExtractAllAudio(panels[..limit]);
  }

  /**
   * Because the limit is applied before the filter, a search can return fewer
   * than `limit` records although more panels with audio exist.
   */
  lemma SearchCanUnderfill()
    ensures
      var silent := Panel(None, None, None);
      var a := Panel(Some("a.mp3"), None, None);
      var b := Panel(Some("b.mp3"), Some("B"), Some("X"));
      && |ExtractTracks([silent, a, b])| == 2
      && SearchPanels([silent, a, b], 2) == [Track("a.mp3", UnknownTitle, UnknownArtist)]
  {
  }

  /** An `a[href*='/artist/']` node: its `href` and its link text, already stripped. */
  datatype ArtistLink = ArtistLink(href: string, text: string)

  /** An artist record as the worker builds it: `{"name", "url"}`. */
  datatype Artist = Artist(name: string, url: string)

  function Urls(artists: seq<Artist>): (r: seq<string>)
    ensures |r| == |artists|
    ensures forall k :: 0 <= k < |artists| ==> r[k] == artists[k].url
  {
    seq(|artists|, k requires 0 <= k < |artists| => artists[k].url)
  }

  /** The resolved `href` of every link, in document order (`urljoin(BASE, a["href"])`). */
  function Resolved(links: seq<ArtistLink>, resolve: string -> string): (r: seq<string>)
    ensures |r| == |links|
    ensures forall j :: 0 <= j < |links| ==> r[j] == resolve(links[j].href)
  {
    seq(|links|, j requires 0 <= j < |links| => resolve(links[j].href))
  }

  /** The position of the first occurrence of `u` in `xs`, or `|xs|` when there is none. */
  function IndexOf(xs: seq<string>, u: string): (k: nat)
    ensures k <= |xs|
    ensures k < |xs| ==> xs[k] == u
    ensures forall j :: 0 <= j < k ==> xs[j] != u
  {
    if xs == [] then 0
    else if xs[0] == u then 0
    else 1 + IndexOf(xs[1..], u)
  }

  /** The record appended for a link whose resolved url is new: empty text becomes "Unknown". */
  function Entry(link: ArtistLink, resolve: string -> string): (a: Artist)
    ensures a.url == resolve(link.href)
    ensures a.name == (if link.text != [] then link.text else UnknownName) && a.name != []
  {
    Artist(if link.text != [] then link.text else UnknownName, resolve(link.href))
  }

  /**
   * What the artist list holds after the first `i` links: distinct urls, every
   * url seen so far, each record built from the first link with its url, and
   * records ordered by that first occurrence.
   */
  ghost predicate DedupInvariant(links: seq<ArtistLink>, resolve: string -> string, i: nat, acc: seq<Artist>)
    requires i <= |links|
  {
    var hrefs := Resolved(links, resolve);
    && (forall k1, k2 :: 0 <= k1 < k2 < |acc| ==> acc[k1].url != acc[k2].url)
    && (forall j :: 0 <= j < i ==> hrefs[j] in Urls(acc))
    && (forall k :: 0 <= k < |acc| ==>
          IndexOf(hrefs, acc[k].url) < i && acc[k] == Entry(links[IndexOf(hrefs, acc[k].url)], resolve))
    && (forall k1, k2 :: 0 <= k1 < k2 < |acc| ==>
          IndexOf(hrefs, acc[k1].url) < IndexOf(hrefs, acc[k2].url))
  }

  /** The loop of `find_all_artists_by_name` from link `i` on, with the list built so far. */
  function DedupFrom(links: seq<ArtistLink>, resolve: string -> string, i: nat, acc: seq<Artist>): (r: seq<Artist>)
    requires i <= |links|
    requires DedupInvariant(links, resolve, i, acc)
    ensures DedupInvariant(links, resolve, |links|, r)
    decreases |links| - i
  {
    if i == |links| then acc
    else
      if resolve(links[i].href) in Urls(acc) then
        DedupSkip(links, resolve, i, acc);
        DedupFrom(links, resolve, i + 1, acc)
      else
        DedupAppend(links, resolve, i, acc);
        DedupFrom(links, resolve, i + 1, acc + [Entry(links[i], resolve)])
  }

  /** A link whose url is already listed leaves the list as it is, and the invariant holds one link further. */
  lemma DedupSkip(links: seq<ArtistLink>, resolve: string -> string, i: nat, acc: seq<Artist>)
    requires i < |links|
    requires DedupInvariant(links, resolve, i, acc)
    requires resolve(links[i].href) in Urls(acc)
    ensures DedupInvariant(links, resolve, i + 1, acc)
  {
    var hrefs := Resolved(links, resolve);
    assert hrefs[i] == resolve(links[i].href);
  }

  /** A link with a new url is its url's first occurrence, and appending its record keeps the invariant. */
  lemma DedupAppend(links: seq<ArtistLink>, resolve: string -> string, i: nat, acc: seq<Artist>)
    requires i < |links|
    requires DedupInvariant(links, resolve, i, acc)
    requires resolve(links[i].href) !in Urls(acc)
    ensures DedupInvariant(links, resolve, i + 1, acc + [Entry(links[i], resolve)])
  {
    var href := resolve(links[i].href);
    var hrefs := Resolved(links, resolve);
    var acc' := acc + [Entry(links[i], resolve)];
    assert IndexOf(hrefs, href) == i by {
      forall j | 0 <= j < i
        ensures hrefs[j] != href
      {
        assert hrefs[j] in Urls(acc);
      }
    }
    assert Urls(acc') == Urls(acc) + [href];
  }

  /**
   * `find_all_artists_by_name` after the fetch: one record per distinct
   * resolved url, carrying the text of that url's first link (or "Unknown"),
   * in order of first occurrence.
   */
  function FindArtists(links: seq<ArtistLink>, resolve: string -> string): (r: seq<Artist>)
    ensures forall k1, k2 :: 0 <= k1 < k2 < |r| ==> r[k1].url != r[k2].url
    ensures forall j :: 0 <= j < |links| ==> resolve(links[j].href) in Urls(r)
    ensures forall k :: 0 <= k < |r| ==>
      var first := IndexOf(Resolved(links, resolve), r[k].url);
      first < |links| && r[k] == Entry(links[first], resolve)
    ensures forall k1, k2 :: 0 <= k1 < k2 < |r| ==>
      IndexOf(Resolved(links, resolve), r[k1].url) < IndexOf(Resolved(links, resolve), r[k2].url)
  {
    var r := DedupFrom(links, resolve, 0, []);
    assert forall j :: 0 <= j < |links| ==> Resolved(links, resolve)[j] in Urls(r);
    r
  }

  /** A sequence without repetitions has as many elements as its set of elements. */
  lemma {:induction false} DistinctCardinality(xs: seq<string>)
    requires forall k1, k2 :: 0 <= k1 < k2 < |xs| ==> xs[k1] != xs[k2]
    ensures |set u | u in xs| == |xs|
  {
    if xs != [] {
      DistinctCardinality(xs[1..]);
      assert (set u | u in xs) == {xs[0]} + (set u | u in xs[1..]);
      assert xs[0] !in xs[1..];
    }
  }

  /** There are exactly as many artist records as distinct resolved urls. */
  lemma FindArtistsCount(links: seq<ArtistLink>, resolve: string -> string)
    ensures |FindArtists(links, resolve)| == |set u | u in Resolved(links, resolve)|
  {
    var urls := Urls(FindArtists(links, resolve));
    DistinctCardinality(urls);
    FindArtistsUrls(links, resolve);
  }

  /** The artists' urls are exactly the resolved hrefs, as sets. */
  lemma FindArtistsUrls(links: seq<ArtistLink>, resolve: string -> string)
    ensures (set u | u in Urls(FindArtists(links, resolve))) == (set u | u in Resolved(links, resolve))
  {
    var r := FindArtists(links, resolve);
    var hrefs := Resolved(links, resolve);
    var urls := Urls(r);
    forall u | u in urls
      ensures u in hrefs
    {
      var k :| 0 <= k < |urls| && urls[k] == u;
      assert IndexOf(hrefs, r[k].url) < |links|;
    }
    forall u | u in hrefs
      ensures u in urls
    {
      var j :| 0 <= j < |hrefs| && hrefs[j] == u;
    }
  }
}

=== FILE: splitjoin.dfy ===
/**
 * A second description of `safe_filename`, by words: Python's `str.split()`
 * with no argument and `" ".join`.  The sanitised name is the words of the
 * input, each with its reserved characters replaced, joined by single blanks.
 */
module SplitJoin {
  import opened Strings
  import opened Sanitize

  /** The longest prefix of `s` without whitespace. */
  function FirstWord(s: string): (w: string)
    ensures |w| <= |s|
    ensures s != [] && !IsSpace(s[0]) ==> |w| > 0
  {
    if s == [] || IsSpace(s[0]) then [] else [s[0]] + FirstWord(s[1..])
  }

  /** Python's `s.split()`: the maximal runs of non-whitespace characters, in order. */
  function Split(s: string): seq<string>
    decreases |s|
  {
    var t := TrimStart(s);
    if t == [] then []
    else
      var w := FirstWord(t);
      [w] + Split(t[|w|..])
  }

  /** The first word is a whitespace-free prefix that ends at whitespace or at the end. */
  lemma {:induction false} FirstWordIsPrefix(s: string)
    ensures var w := FirstWord(s);
      && w == s[..|w|]
      && (forall i :: 0 <= i < |w| ==> !IsSpace(w[i]))
      && (|w| < |s| ==> IsSpace(s[|w|]))
  {
    if s != [] && !IsSpace(s[0]) {
      FirstWordIsPrefix(s[1..]);
    }
  }

  /** The words are non-empty and hold no whitespace. */
  lemma {:induction false} SplitGivesWords(s: string)
    ensures var ws := Split(s);
      && (forall i :: 0 <= i < |ws| ==> ws[i] != [])
      && (forall i, k :: 0 <= i < |ws| && 0 <= k < |ws[i]| ==> !IsSpace(ws[i][k]))
    decreases |s|
  {
    var t := TrimStart(s);
    if t != [] {
      var w := FirstWord(t);
      FirstWordIsPrefix(t);
      SplitGivesWords(t[|w|..]);
      var ws := Split(s);
      assert ws == [w] + Split(t[|w|..]);
      forall i | 1 <= i < |ws|
        ensures ws[i] == Split(t[|w|..])[i - 1]
      {
      }
    }
  }

  /** Python's `" ".join(ws)`. */
  function JoinBlank(ws: seq<string>): string {
    if ws == [] then []
    else if |ws| == 1 then ws[0]
    else ws[0] + " " + JoinBlank(ws[1..])
  }

  /** Every word with its reserved characters replaced. */
  function ReplaceEach(ws: seq<string>): (r: seq<string>)
    ensures |r| == |ws|
    ensures forall i :: 0 <= i < |ws| ==> r[i] == ReplaceReserved(ws[i])
  {
    seq(|ws|, i requires 0 <= i < |ws| => ReplaceReserved(ws[i]))
  }

  /**
   * `safe_filename(s)` is `" ".join(w' for w in s.split())`, where `w'` is
   * `w` with each reserved character replaced by an underscore.
   */
  lemma SafeFilenameByWords(s: string)
    ensures SafeFilename(s) == JoinBlank(ReplaceEach(Split(s)))
  {
    var stripped := Strip(s);
    ReplaceReservedIsClean(stripped);
    CollapseIsJoin(ReplaceReserved(stripped));
    SplitReplace(stripped);
    SplitStrip(s);
    JoinReplace(Split(stripped));
  }

  /** Leading whitespace does not change the words. */
  lemma SplitSkipsSpace(x: string)
    requires x != [] && IsSpace(x[0])
    ensures Split(x) == Split(x[1..])
  {
    assert TrimStart(x) == TrimStart(x[1..]);
  }

  lemma SplitTrimStart(x: string)
    ensures Split(TrimStart(x)) == Split(x)
  {
    var t := TrimStart(x);
    assert TrimStart(t) == t;
  }

  /**
   * In a trimmed text, the whitespace after a word is followed by a
   * trimmed, shorter, non-empty remainder.
   */
  lemma AfterWord(x: string, rest: string)
    requires Trimmed(x) && rest != [] && IsSpace(rest[0])
    requires |rest| <= |x| && rest == x[|x| - |rest|..]
    ensures var y := TrimStart(rest[1..]); y != [] && Trimmed(y) && |y| < |x|
  {
    var y := TrimStart(rest[1..]);
    TrimStartSuffix(rest[1..]);
    assert x[|x| - 1] == rest[|rest| - 1];
    assert rest[1..] == x[|x| - |rest| + 1..];
    assert y[|y| - 1] == rest[1..][|rest| - 2];
  }

  /** A text that starts with a word splits into that word and the words after it. */
  lemma SplitAtWord(x: string)
    requires x != [] && !IsSpace(x[0])
    ensures Split(x) == [FirstWord(x)] + Split(x[|FirstWord(x)|..])
  {
    assert TrimStart(x) == x;
  }

  lemma JoinCons(w: string, ws: seq<string>)
    requires ws != []
    ensures JoinBlank([w] + ws) == w + " " + JoinBlank(ws)
  {
    assert ([w] + ws)[1..] == ws;
  }

  /** Collapsing a trimmed text: its first word, one blank, then the rest collapsed. */
  lemma CollapseStep(x: string)
    requires Trimmed(x) && x != [] && |FirstWord(x)| < |x|
    ensures var w := FirstWord(x); var y := TrimStart(x[|w| + 1..]);
      CollapseSpaces(x) == w + " " + CollapseSpaces(y)
  {
    var w := FirstWord(x);
    var rest := x[|w|..];
    var y := TrimStart(rest[1..]);
    FirstWordIsPrefix(x);
    assert x == w + rest;
    CollapseWord(w, rest);
    assert CollapseSpaces(rest) == [' '] + CollapseSpaces(y);
    assert rest[1..] == x[|w| + 1..];
    assert w + ([' '] + CollapseSpaces(y)) == w + " " + CollapseSpaces(y);
  }

  /** Splitting a trimmed text: its first word, then the words of a shorter trimmed rest. */
  lemma SplitStep(x: string)
    requires Trimmed(x) && x != [] && |FirstWord(x)| < |x|
    ensures var w := FirstWord(x); var y := TrimStart(x[|w| + 1..]);
      && Trimmed(y) && y != [] && |y| < |x|
      && Split(x) == [w] + Split(y)
      && Split(y) != []
  {
    var w := FirstWord(x);
    var rest := x[|w|..];
    var y := TrimStart(rest[1..]);
    FirstWordIsPrefix(x);
    SplitAtWord(x);
    AfterWord(x, rest);
    SplitSkipsSpace(rest);
    SplitTrimStart(rest[1..]);
    assert rest[1..] == x[|w| + 1..];
    SplitAtWord(y);
  }

  /** On a trimmed text, collapsing whitespace runs is joining its words with blanks. */
  lemma {:induction false} CollapseIsJoin(x: string)
    requires Trimmed(x)
    ensures CollapseSpaces(x) == JoinBlank(Split(x))
    decreases |x|
  {
    if x != [] {
      var w := FirstWord(x);
      if |w| == |x| {
        FirstWordIsPrefix(x);
        SplitAtWord(x);
        assert x[|w|..] == [];
        CollapseWord(w, []);
        assert w + [] == x;
      } else {
        var y := TrimStart(x[|w| + 1..]);
        CollapseStep(x);
        SplitStep(x);
        CollapseIsJoin(y);
        JoinCons(w, Split(y));
      }
    }
  }

  lemma AllSpaceTrimsAway(sp: string)
    requires AllSpace(sp)
    ensures TrimStart(sp) == []
  {
    TrimStartSuffix(sp);
  }

  /** Trailing whitespace does not change the first word. */
  lemma {:induction false} FirstWordBeforeSpaces(u: string, sp: string)
    requires AllSpace(sp)
    ensures FirstWord(u + sp) == FirstWord(u)
  {
    if u == [] {
      assert u + sp == sp;
    } else {
      assert (u + sp)[0] == u[0];
      if !IsSpace(u[0]) {
        assert (u + sp)[1..] == u[1..] + sp;
        FirstWordBeforeSpaces(u[1..], sp);
      }
    }
  }

  /** Trailing whitespace does not change the words. */
  lemma {:induction false} SplitBeforeSpaces(u: string, sp: string)
    requires AllSpace(sp)
    ensures Split(u + sp) == Split(u)
    decreases |u|
  {
    if u == [] {
      assert u + sp == sp;
      AllSpaceTrimsAway(sp);
    } else if IsSpace(u[0]) {
      assert (u + sp)[1..] == u[1..] + sp;
      SplitSkipsSpace(u + sp);
      SplitSkipsSpace(u);
      SplitBeforeSpaces(u[1..], sp);
    } else {
      assert TrimStart(u + sp) == u + sp;
      assert TrimStart(u) == u;
      FirstWordBeforeSpaces(u, sp);
      var w := FirstWord(u);
      assert (u + sp)[|w|..] == u[|w|..] + sp;
      SplitBeforeSpaces(u[|w|..], sp);
    }
  }

  /** Stripping does not change the words. */
  lemma SplitStrip(s: string)
    ensures Split(Strip(s)) == Split(s)
  {
    var t := TrimStart(s);
    var r := TrimEnd(t);
    TrimEndPrefix(t);
    assert t == r + t[|r|..];
    SplitBeforeSpaces(r, t[|r|..]);
    SplitTrimStart(s);
  }

  lemma ReplaceSlice(x: string, k: nat)
    requires k <= |x|
    ensures ReplaceReserved(x)[k..] == ReplaceReserved(x[k..])
  {
  }

  lemma UnderscoreKeepsSpace(c: char)
    ensures IsSpace(Underscore(c)) == IsSpace(c)
  {
  }

  lemma ReplaceCons(x: string)
    requires x != []
    ensures ReplaceReserved(x) == [Underscore(x[0])] + ReplaceReserved(x[1..])
  {
  }

  /** The substitution keeps whitespace where it is, so it commutes with trimming. */
  lemma {:induction false} TrimStartReplace(x: string)
    ensures TrimStart(ReplaceReserved(x)) == ReplaceReserved(TrimStart(x))
    decreases |x|
  {
    if x != [] {
      var r := ReplaceReserved(x);
      ReplaceCons(x);
      UnderscoreKeepsSpace(x[0]);
      assert r[1..] == ReplaceReserved(x[1..]);
      if IsSpace(x[0]) {
        TrimStartReplace(x[1..]);
      }
    }
  }

  lemma {:induction false} FirstWordReplace(x: string)
    ensures FirstWord(ReplaceReserved(x)) == ReplaceReserved(FirstWord(x))
    decreases |x|
  {
    if x != [] {
      var r := ReplaceReserved(x);
      ReplaceCons(x);
      UnderscoreKeepsSpace(x[0]);
      assert r[1..] == ReplaceReserved(x[1..]);
      if !IsSpace(x[0]) {
        FirstWordReplace(x[1..]);
        ReplaceCons([x[0]] + FirstWord(x[1..]));
        assert ([x[0]] + FirstWord(x[1..]))[1..] == FirstWord(x[1..]);
      }
    }
  }

  /** The words of the substituted text are the substituted words. */
  lemma {:induction false} SplitReplace(x: string)
    ensures Split(ReplaceReserved(x)) == ReplaceEach(Split(x))
    decreases |x|
  {
    var t := TrimStart(x);
    var rt := ReplaceReserved(t);
    TrimStartReplace(x);
    if t != [] {
      var w := FirstWord(t);
      var rest := t[|w|..];
      FirstWordReplace(t);
      ReplaceSlice(t, |w|);
      SplitReplace(rest);
      assert Split(ReplaceReserved(x)) == [ReplaceReserved(w)] + Split(rt[|w|..]);
      var ws := Split(x);
      assert ws == [w] + Split(rest);
      ReplaceEachCons(w, Split(rest));
    }
  }

  lemma ReplaceEachCons(w: string, ws: seq<string>)
    ensures ReplaceEach([w] + ws) == [ReplaceReserved(w)] + ReplaceEach(ws)
  {
  }

  /** Joining the substituted words is substituting the joined words. */
  lemma {:induction false} JoinReplace(ws: seq<string>)
    ensures JoinBlank(ReplaceEach(ws)) == ReplaceReserved(JoinBlank(ws))
  {
    if |ws| > 1 {
      JoinReplace(ws[1..]);
      assert ReplaceEach(ws)[1..] == ReplaceEach(ws[1..]);
      ReplaceAppend(ws[0] + " ", JoinBlank(ws[1..]));
      ReplaceAppend(ws[0], " ");
      assert ReplaceReserved(" ") == " ";
    }
  }
}

=== FILE: strings.dfy ===
/**
 * Character classes and whitespace trimming shared by the filename sanitiser
 * and the query handling of the search worker.
 */
module Strings {

  /**
   * Python's `str.isspace`, which is also what `str.strip()` removes and what
   * the `\s` class of `re` matches on str patterns.
   */
  predicate IsSpace(c: char) {
    || c == ' '
    || ('\t' <= c <= '\r')
    || ('\U{1C}' <= c <= '\U{1F}')
    || c == '\U{85}'
    || c == '\U{A0}'
    || c == '\U{1680}'
    || ('\U{2000}' <= c <= '\U{200A}')
    || c == '\U{2028}'
    || c == '\U{2029}'
    || c == '\U{202F}'
    || c == '\U{205F}'
    || c == '\U{3000}'
  }

  predicate AllSpace(s: string) {
    forall i :: 0 <= i < |s| ==> IsSpace(s[i])
  }

  /** `s` neither begins nor ends with whitespace. */
  predicate Trimmed(s: string) {
    s == [] || (!IsSpace(s[0]) && !IsSpace(s[|s| - 1]))
  }

  /** The non-whitespace characters of `s`, in order. */
  function NonSpace(s: string): string
  {
    if s == [] then []
    else (if IsSpace(s[0]) then [] else [s[0]]) + NonSpace(s[1..])
  }

  lemma {:induction false} NonSpaceAppend(a: string, b: string)
    ensures NonSpace(a + b) == NonSpace(a) + NonSpace(b)
  {
    if a == [] {
      assert a + b == b;
    } else {
      assert (a + b)[1..] == a[1..] + b;
      NonSpaceAppend(a[1..], b);
    }
  }

  /** Removes the leading whitespace (the left half of `str.strip`). */
  function TrimStart(s: string): (r: string)
    ensures |r| <= |s|
    ensures r == [] || !IsSpace(r[0])
    ensures NonSpace(r) == NonSpace(s)
  {
    if |s| > 0 && IsSpace(s[0]) then TrimStart(s[1..]) else s
  }

  /** What `TrimStart` removed is a whitespace prefix. */
  lemma {:induction false} TrimStartSuffix(s: string)
    ensures TrimStart(s) == s[|s| - |TrimStart(s)|..]
    ensures AllSpace(s[..|s| - |TrimStart(s)|])
  {
    if |s| > 0 && IsSpace(s[0]) {
      var tail := s[1..];
      var r := TrimStart(tail);
      assert TrimStart(s) == r;
      TrimStartSuffix(tail);
      var cut := |tail| - |r|;
      assert tail[cut..] == s[cut + 1..];
      var pre := s[..cut + 1];
      assert pre == [s[0]] + tail[..cut];
      forall k | 0 <= k < |pre|
        ensures IsSpace(pre[k])
      {
        if k > 0 {
          assert pre[k] == tail[..cut][k - 1];
        }
      }
    }
  }

  /** Removes the trailing whitespace (the right half of `str.strip`). */
  function TrimEnd(s: string): (r: string)
    ensures |r| <= |s|
    ensures r == [] || !IsSpace(r[|r| - 1])
    ensures NonSpace(r) == NonSpace(s)
  {
    if |s| > 0 && IsSpace(s[|s| - 1]) then
      assert s == s[..|s| - 1] + [s[|s| - 1]];
      NonSpaceAppend(s[..|s| - 1], [s[|s| - 1]]);
      TrimEnd(s[..|s| - 1])
    else s
  }

  /** What `TrimEnd` removed is a whitespace suffix. */
  lemma {:induction false} TrimEndPrefix(s: string)
    ensures TrimEnd(s) == s[..|TrimEnd(s)|]
    ensures AllSpace(s[|TrimEnd(s)|..])
  {
    if |s| > 0 && IsSpace(s[|s| - 1]) {
      var init := s[..|s| - 1];
      var r := TrimEnd(init);
      assert TrimEnd(s) == r;
      TrimEndPrefix(init);
      assert r == s[..|r|] by {
        assert init[..|r|] == s[..|r|];
      }
      forall k | |r| <= k < |s|
        ensures IsSpace(s[k])
      {
        if k < |init| {
          assert s[k] == init[|r|..][k - |r|];
        }
      }
    }
  }

  /** Python's `str.strip()` with no argument. */
  function Strip(s: string): (r: string)
    ensures |r| <= |s|
    ensures Trimmed(r)
    ensures NonSpace(r) == NonSpace(s)
    ensures AllSpace(s) <==> r == []
    ensures exists i, j :: 0 <= i <= j <= |s| && r == s[i..j] && AllSpace(s[..i]) && AllSpace(s[j..])
  {
    var t := TrimStart(s);
    var r := TrimEnd(t);
    StripSlice(s);
    TrimEndPrefix(t);
    var i := |s| - |t|;
    assert r == s[i..i + |r|];
    r
  }

  /** What `strip()` keeps is the stretch between a whitespace prefix and a whitespace suffix. */
  lemma StripSlice(s: string)
    ensures var t := TrimStart(s); var i := |s| - |t|; var r := TrimEnd(t);
      && r == s[i..i + |r|]
      && AllSpace(s[..i])
      && AllSpace(s[i + |r|..])
      && (r == [] ==> AllSpace(s))
  {
    var t := TrimStart(s);
    var r := TrimEnd(t);
    var i := |s| - |t|;
    TrimStartSuffix(s);
    TrimEndKeepsStart(t);
    SliceOfSuffix(s, i, |r|);
    if r == [] {
      assert s == s[..i];
    }
  }

  lemma SliceOfSuffix(s: string, i: nat, n: nat)
    requires i + n <= |s|
    ensures s[i..i + n] == s[i..][..n]
    ensures s[i + n..] == s[i..][n..]
  {
  }

  /** Of a text that starts with a non-space, `TrimEnd` removes a whitespace suffix only. */
  lemma TrimEndKeepsStart(t: string)
    requires t == [] || !IsSpace(t[0])
    ensures var r := TrimEnd(t); r == t[..|r|] && AllSpace(t[|r|..]) && (r == [] ==> t == [])
  {
    TrimEndPrefix(t);
  }

  /** Python's `str.startswith(prefix)`. */
  predicate StartsWith(s: string, prefix: string) {
    |prefix| <= |s| && s[..|prefix|] == prefix
  }

  /** Python's `str.endswith(suffix)`. */
  predicate EndsWith(s: string, suffix: string) {
    |suffix| <= |s| && s[|s| - |suffix|..] == suffix
  }

  /** Leading whitespace is trimmed the same way when a word follows. */
  lemma {:induction false} TrimStartBeforeWord(u: string, w: string)
    requires w != [] && !IsSpace(w[0])
    ensures TrimStart(u + w) == TrimStart(u) + w
  {
    if u == [] {
      assert u + w == w;
    } else {
      assert (u + w)[0] == u[0];
      if IsSpace(u[0]) {
        assert (u + w)[1..] == u[1..] + w;
        TrimStartBeforeWord(u[1..], w);
      }
    }
  }

  /** Python's `str.isdigit()`, for the ASCII digits: true only when `s` is non-empty. */
  predicate IsDigits(s: string) {
    |s| > 0 && forall i :: 0 <= i < |s| ==> '0' <= s[i] <= '9'
  }
}
